=== FILE: README.md ===
# Menu management page: a Dafny model

This project models the logic of the restaurant admin's menu management page
(`client/src/pages/admin/menu-management.tsx`). The page takes a snapshot of a
restaurant and its menu items and runs it through a pure pipeline:

1. **Category resolution.** Choose the category headings. The restaurant's
   custom types come first. Failing those, labels are derived from the items'
   category strings. Failing those, the four default headings are used.
2. **Filter and sort.** A case-insensitive search over name, description and
   category. Then a category filter, a diet filter and an availability filter.
   Then a stable sort on name, price, category or creation time, ascending or
   descending.
3. **Buckets.** Group the listed items under the headings. An item belongs
   under a heading when both are equal after lower-casing and trimming. While
   a search is active, a heading with no items is hidden.
4. **Helpers.** `normalizeCategory`. `truncateText`, and the spreadsheet
   export row built with it.
5. **Image upload check.** Files over 200 KB are refused. Otherwise a file is
   accepted when its MIME type starts with `image/` or its lower-cased name
   ends in a camera RAW extension.

Modules, one per part of the page:

- `Text`: the JavaScript string operations the page uses, over `seq<char>`.
  These are `toLowerCase`, `toUpperCase`, `trim`, `startsWith`, `endsWith`,
  `includes`, the regular-expression replace and split on runs of
  `[\s\-_]` and `\s`, and `join(' ')`.
- `Menu`: the item and restaurant records, `Option` and `Result`.
- `Seqs`: duplicate-free sequences and first positions. It also holds
  `Dedup`, which models `Array.from(new Set(xs))`.
- `Categories`: `normalizeCategory`, the derived label, and category
  resolution.
- `Sorting`: the comparator and a stable insertion sort.
- `Listing`: the four filters and `filteredAndSortedMenuItems`.
- `Buckets`: the grouping under headings.
- `MenuView`: the page as a whole, from the resolved headings to the buckets
  shown.
- `Export`: `truncateText` and the export rows.
- `Upload`: `handleImageUpload`'s checks.

Modelling choices:

- Case mapping is ASCII.
- Whitespace is JavaScript's `WhiteSpace` and `LineTerminator` set, which
  both `trim` and `\s` use.
- `localeCompare` is lexicographic order on character codes.
- A price is either text with the number `parseFloat` reads from it, or a
  number. Both are whole numbers. A JavaScript number holds every whole
  number exactly only up to 2^53; the model's prices have no such bound.
- `createdAt` is a whole-number timestamp.
- A string is a sequence of Unicode code points, and its length counts code
  points, not UTF-16 code units.
- A missing `customTypes` is the empty list, a missing `mongoUri` is the empty
  string, and a missing item list is the empty list.

In three places the code behaves differently from what its labels and
comments suggest. The model follows the code, and states and proves each:

- The derived label is not trimmed. A category with a leading separator gets
  a label that starts with a space: `" starters"` is not labelled
  `"Starters"`. See `Categories.LeadingSeparatorLabel` and
  `Categories.LeadingSpaceStarters`.
- The sort option "recent", descending, is offered as "Recent First". Because
  the comparison is `b.createdAt - a.createdAt`, negated for descending, it
  puts the older item first. See `Sorting.RecentDescendingIsOldestFirst`.
- Derived headings and bucket membership normalise differently. The heading
  replaces separator runs by a space; the bucket test only lower-cases and
  trims. So a restaurant with a `mongoUri`, no custom types and one item of
  category `"main-course"` shows
  the heading `"Main Course"` with nothing under it. See
  `MenuView.HyphenatedCategoryIsHidden`.

## Model

| member | source | states |
|---|---|---|
| Text.Lower | client/src/pages/admin/menu-management.tsx:75 | `toLowerCase` under the ASCII case map: same length, each character lower-cased, no upper-case letter left. |
| Text.Trim | client/src/pages/admin/menu-management.tsx:76-79 | Definition: `trim` (the trims at lines 76 and 79); see `Text.TrimSplit`, which shows the text is blanks, then the trimmed text, then blanks. |
| Text.TrimSplit | client/src/pages/admin/menu-management.tsx:76 | Every text is a blank prefix, then its trimmed text, then a blank suffix. With `Text.Trim`'s own guarantee that the trimmed text has no blank at either end, this determines `trim` exactly. |
| Text.TrimInfix | client/src/pages/admin/menu-management.tsx:76 | The trimmed text is a contiguous part of the text. |
| Text.CollapseRuns | client/src/pages/admin/menu-management.tsx:77-78 | Definition: replace every run of the class's characters by one space (the `replace(/[\s\-_]+/g, ' ')` and `replace(/\s+/g, ' ')` steps); see `Text.CollapseRunsCollapsed` and `Text.CollapseRunsOfCollapsed`. |
| Text.CollapseRunsCollapsed | client/src/pages/admin/menu-management.tsx:77 | After collapsing separator runs, the only blank, `-` or `_` left is a plain space, and no two of them are adjacent. |
| Text.CollapseRunsOfCollapsed | client/src/pages/admin/menu-management.tsx:78 | Collapsing a text that has no runs left changes nothing. |
| Text.TrimCollapseTrim | client/src/pages/admin/menu-management.tsx:76-79 | Trimming before collapsing separator runs does not change the trimmed result. |
| Text.StartsWith | client/src/pages/admin/menu-management.tsx:381 | Definition: `startsWith`, the text's prefix of the other's length is the other; see `Upload.MimeTypeCaseSensitive`. |
| Text.EndsWith | client/src/pages/admin/menu-management.tsx:382 | Definition: `endsWith`, the text's suffix of the other's length is the other; see `Upload.RawWithoutMimeType` and `Upload.NameCaseIrrelevant`. |
| Text.Split | client/src/pages/admin/menu-management.tsx:163 | `split(/[\s\-_]+/)`: at least one word, none holding a blank, `-` or `_`; see `Text.JoinSplitIsCollapse`. |
| Text.JoinWords | client/src/pages/admin/menu-management.tsx:165 | Definition: `join(' ')`; see `Text.JoinSplitIsCollapse`. |
| Text.JoinSplitIsCollapse | client/src/pages/admin/menu-management.tsx:163-165 | Splitting on separator runs and joining with spaces is collapsing separator runs into one space. |
| Text.Includes | client/src/pages/admin/menu-management.tsx:426-428 | Definition: `includes`; see `Text.IncludesIffOccurs`. |
| Text.IncludesIffOccurs | client/src/pages/admin/menu-management.tsx:426-428 | A text includes another exactly when the other occurs at some position of it. |
| Categories.NormalizeCategory | client/src/pages/admin/menu-management.tsx:72-80 | The result is the lower-cased category with each run of blanks, `-` and `_` replaced by one space, then trimmed; an empty category gives the empty string. So it has no blank at either end, no upper-case letter, no `-` or `_`, only plain spaces, and no two spaces in a row. |
| Categories.NormalizeCategoryIdempotent | client/src/pages/admin/menu-management.tsx:72-80 | Normalizing a normalized category changes nothing. |
| Categories.NormalizedIsTrimmedLabel | client/src/pages/admin/menu-management.tsx:72-80 | The normalized category equals the derived label of the same category, lower-cased and trimmed: the two normal forms differ only in case and in blanks at the ends. |
| Categories.LowerDerivedLabel | client/src/pages/admin/menu-management.tsx:161-166 | Lower-casing a derived label gives the lower-cased category with each run of blanks, `-` and `_` replaced by one space. Capitalizing loses nothing. |
| Categories.Capitalize | client/src/pages/admin/menu-management.tsx:164 | Definition: upper-cases the first character of a word and keeps the rest; see `Categories.LowerCapitalize`. |
| Categories.LowerCapitalize | client/src/pages/admin/menu-management.tsx:164 | Lower-casing a capitalized word that has no upper-case letter gives the word back. |
| Categories.DerivedLabel | client/src/pages/admin/menu-management.tsx:161-166 | Definition: lower-case, split on runs of blanks, `-` and `_`, capitalize each word, join with spaces; see `Categories.LowerDerivedLabel`, `Categories.SameLabelIff` and `Categories.MainCourseLabels`. |
| Categories.SameLabelIff | client/src/pages/admin/menu-management.tsx:161-169 | Two categories get the same label, and so merge in the de-duplicated list, exactly when they agree after lower-casing and collapsing separator runs. |
| Categories.MainCourseLabels | client/src/pages/admin/menu-management.tsx:161-166 | `"main-course"`, `"Main_Course"` and `"MAIN COURSE"` are all labelled `"Main Course"`. |
| Categories.LeadingSeparatorLabel | client/src/pages/admin/menu-management.tsx:161-166 | A category that starts with a blank, `-` or `_` gets a label that starts with a space. The label is not trimmed. |
| Categories.LeadingSpaceStarters | client/src/pages/admin/menu-management.tsx:161-166 | `" starters"` is not labelled `"Starters"`. |
| Categories.FormattedCategories | client/src/pages/admin/menu-management.tsx:153-166 | A label is among the formatted categories exactly when some item with a category that is not blank after trimming yields it. |
| Categories.IsValidCategory | client/src/pages/admin/menu-management.tsx:156 | Definition: the category is not empty after trimming; see `Categories.FormattedCategories` and `Categories.ResolveCategories`. |
| Categories.ValidCategories | client/src/pages/admin/menu-management.tsx:153-159 | Definition: the categories that are not blank after trimming, in item order; see `Categories.FormattedCategoriesOfValid`. |
| Categories.FormattedCategoriesOfValid | client/src/pages/admin/menu-management.tsx:153-166 | There is one formatted label per item with a valid category, duplicates kept, and the k-th label is the derived label of the k-th valid category. |
| Categories.DerivesFromItems | client/src/pages/admin/menu-management.tsx:151 | Definition: no custom types, a non-empty `mongoUri`, and some item with a valid category; see `Categories.ResolveCategories`. |
| Categories.ResolveCategories | client/src/pages/admin/menu-management.tsx:126-174 | Non-empty custom types are the result verbatim, whatever the items. With no custom types, the result is the default four headings unless the restaurant has a `mongoUri` and some item has a non-blank category. In that case the result is duplicate-free. A label is in it exactly when some valid item yields that label. Labels are ordered by the first item that yields them. |
| Seqs.Dedup | client/src/pages/admin/menu-management.tsx:168-169 | The result is duplicate-free. It holds exactly the elements of the input, ordered by their first occurrence in it. |
| Sorting.LexCompare | client/src/pages/admin/menu-management.tsx:448-449 | The string comparison is -1, 0 or 1, and is 0 exactly when the strings are equal. |
| Sorting.Compare | client/src/pages/admin/menu-management.tsx:446-458 | Definition: the comparison for each sort key (name, price, category, creation time); see `Sorting.BeforeTotal` and `Sorting.BeforeTransitive`. |
| Sorting.Directed | client/src/pages/admin/menu-management.tsx:460 | Definition: the comparison, negated unless the order is ascending; see `Sorting.DirectedAntisymmetric`. |
| Sorting.DirectedAntisymmetric | client/src/pages/admin/menu-management.tsx:444-460 | Swapping the two items negates the directed comparison, for every key and order. |
| Sorting.BeforeTotal | client/src/pages/admin/menu-management.tsx:444-461 | For every key and order, of any two items one may precede the other. Two items tie exactly when each may precede the other. |
| Sorting.BeforeTransitive | client/src/pages/admin/menu-management.tsx:444-461 | The comparator's order is transitive for every key, ascending and descending. |
| Sorting.TiedEquivalence | client/src/pages/admin/menu-management.tsx:444-461 | Items that compare equal form an equivalence. |
| Sorting.RecentDescendingIsOldestFirst | client/src/pages/admin/menu-management.tsx:456-460 | With key "recent" and order "desc", the older item sorts first. With "asc", the newer item sorts first. |
| Sorting.Sort | client/src/pages/admin/menu-management.tsx:444-461 | The sorted list is a permutation of the input, ordered by the comparator. |
| Sorting.SortStable | client/src/pages/admin/menu-management.tsx:444-461 | Items that compare equal keep their relative input order. |
| Sorting.SortIsTheStableSort | client/src/pages/admin/menu-management.tsx:444-461 | Any sorted, stable permutation of the input equals `Sort`'s result. So the model determines the page's order whatever stable algorithm the engine uses. |
| Listing.MatchesSearch | client/src/pages/admin/menu-management.tsx:422-428 | Definition: the lower-cased search text is included in the lower-cased name, description or category; see `Listing.MatchesSearchIff`. |
| Listing.MatchesCategory | client/src/pages/admin/menu-management.tsx:431 | Definition: the category filter is "all", or the lower-cased category equals the lower-cased filter. On this page the filter starts as `"all"` (line 67) and is only ever set back to `"all"` (line 897), so the comparison branch is never reached there; `Query.category` is general. |
| Listing.MatchesVeg | client/src/pages/admin/menu-management.tsx:434-436 | Definition: the diet filter is "all", or "veg" and the item is vegetarian, or "non-veg" and it is not. |
| Listing.MatchesAvailability | client/src/pages/admin/menu-management.tsx:439-441 | Definition: the availability filter is "all", or "available" and the item is available, or "unavailable" and it is not. |
| Listing.Matches | client/src/pages/admin/menu-management.tsx:443 | Definition: all four filters pass; see `Listing.SelectCount` and `Listing.FilterAndSort`. |
| Listing.Select | client/src/pages/admin/menu-management.tsx:421-443 | The selection is no longer than the menu; see `Listing.SelectCount`. |
| Listing.SelectCount | client/src/pages/admin/menu-management.tsx:421-443 | Each item occurs in the selection as often as in the menu when it passes all four filters, and not at all otherwise. |
| Listing.SelectTies | client/src/pages/admin/menu-management.tsx:421-461 | Selecting commutes with taking the items tied with a given item. |
| Listing.MatchesSearchIff | client/src/pages/admin/menu-management.tsx:422-428 | An item matches the search exactly when the lower-cased search text occurs at some position of its lower-cased name, description or category. |
| Listing.SearchIgnoresCase | client/src/pages/admin/menu-management.tsx:422-428 | Under the ASCII case map, searching for a text, its lower-cased form or its upper-cased form selects the same items. |
| Listing.EmptySearchMatches | client/src/pages/admin/menu-management.tsx:422-428 | The empty search matches every item. |
| Listing.FilterAndSort | client/src/pages/admin/menu-management.tsx:421-461 | Each item occurs in the result as often as in the menu when it passes all four filters, and not at all otherwise. The result is sorted. Every group of tied items is, in order, the passing items of that group in the menu. |
| Listing.NeutralQueryKeepsAll | client/src/pages/admin/menu-management.tsx:421-443 | With an empty search and every filter at "all", the list is a stable rearrangement of the whole menu. |
| Buckets.BelongsTo | client/src/pages/admin/menu-management.tsx:915-920 | Definition: the item has a non-empty category, and it equals the heading after both are lower-cased and trimmed; see `Buckets.InBucket`. |
| Buckets.BucketItems | client/src/pages/admin/menu-management.tsx:914-921 | Each item under a heading belongs there, and there are no more of them than listed items; see `Buckets.BucketCount` and `Buckets.BucketIsSubsequence`. |
| Buckets.InBucket | client/src/pages/admin/menu-management.tsx:914-921 | An item is under a heading exactly when it is listed, its category is non-empty, and both lower-cased and trimmed are equal. |
| Buckets.BucketCount | client/src/pages/admin/menu-management.tsx:914-921 | A heading holds each listed item that belongs under it, as many times as it is listed, and no other. |
| Buckets.BucketSorted | client/src/pages/admin/menu-management.tsx:914-921 | The items under a heading of a sorted list are sorted. |
| Buckets.BucketIsSubsequence | client/src/pages/admin/menu-management.tsx:914-921 | The items under a heading occur in the list in the same order: the bucket is the list with the other items left out. |
| Buckets.BucketTies | client/src/pages/admin/menu-management.tsx:914-921 | Taking a heading's items commutes with taking the items tied with a given item, so tied items keep their list order within a heading. |
| Buckets.BucketOfSorted | client/src/pages/admin/menu-management.tsx:914-921 | The items under a heading of the stably sorted list are the stable sort of the items under that heading. |
| Buckets.StartersBucket | client/src/pages/admin/menu-management.tsx:914-921 | `"starters"` and `"Starters "` both sit under `"Starters"`. |
| Buckets.MainCourseBucket | client/src/pages/admin/menu-management.tsx:914-921 | Neither `"main-course"` nor `"Main Courses"` sits under `"Main Course"`. |
| Buckets.Partition | client/src/pages/admin/menu-management.tsx:912-933 | There are at most as many buckets as categories. Each bucket's heading is one of the categories, and its items are exactly the listed items belonging under it. While a search is active, no bucket is empty. |
| Buckets.PartitionHeadingsInOrder | client/src/pages/admin/menu-management.tsx:912-933 | The headings shown occur among the categories in the same order. |
| Buckets.PartitionHeadingsCount | client/src/pages/admin/menu-management.tsx:912-933 | A heading is shown once for each time its category is listed when there is no search or it has items, and not at all otherwise; a category listed twice is shown twice. |
| Buckets.Kept | client/src/pages/admin/menu-management.tsx:923 | Definition: a category's heading stays when there is no search or its bucket has items; see `Buckets.PartitionHeadingsCount`. |
| Buckets.PartitionShows | client/src/pages/admin/menu-management.tsx:923 | A heading is shown exactly when it is a category and either there is no search or it has items. |
| Buckets.PartitionWithoutSearch | client/src/pages/admin/menu-management.tsx:912-933 | Without a search every category is shown, in category order, each with its own items. Some may have none. |
| MenuView.View | client/src/pages/admin/menu-management.tsx:912-933 | The headings shown are resolved categories, in the resolved order. Each bucket holds exactly the filtered and sorted items that belong under its heading. During a search, every heading shown has items. Which headings are shown is stated by `MenuView.HeadingShown`. |
| MenuView.BucketIsSortedSelection | client/src/pages/admin/menu-management.tsx:912-921 | Each bucket holds the stable sort of the menu items that pass the list controls and belong under its heading. |
| MenuView.HeadingShown | client/src/pages/admin/menu-management.tsx:912-923 | A heading appears on the page exactly when it is one of the resolved categories and is kept: there is no search, or some filtered item belongs under it. |
| MenuView.ItemShown | client/src/pages/admin/menu-management.tsx:912-923 | An item appears on the page exactly when it is on the menu, passes the list controls, and belongs under one of the resolved categories. |
| MenuView.HyphenatedCategoryIsHidden | client/src/pages/admin/menu-management.tsx:914-921 | Take a restaurant with a `mongoUri` and no custom types whose only item has category `"main-course"`. Its one heading is `"Main Course"`, and the item appears nowhere on the page. |
| Export.TruncateText | client/src/pages/admin/menu-management.tsx:482-490 | The result is a prefix of the text, no longer than the limit. It is the text itself when the text fits, and exactly the limit long otherwise. The empty text gives the empty result. |
| Export.IntToDecimal | client/src/pages/admin/menu-management.tsx:498 | Definition: the decimal text of a whole number, with a leading `-` when negative; see `Export.ParseIntOfDecimal`. |
| Export.ParseIntOfDecimal | client/src/pages/admin/menu-management.tsx:498 | A numeric price's exported text reads back as the same number. |
| Export.PriceText | client/src/pages/admin/menu-management.tsx:498 | Definition: a text price as written, a numeric price in decimal; see `Export.ExportRowReadsBack`. |
| Export.BoolCell | client/src/pages/admin/menu-management.tsx:500-502 | Definition: "TRUE" or "FALSE"; see `Export.ParseBoolCellOfCell`. |
| Export.ParseBoolCellOfCell | client/src/pages/admin/menu-management.tsx:500-502 | A flag cell reads back as the flag. |
| Export.ToExportRow | client/src/pages/admin/menu-management.tsx:493-504 | Each text cell (name, description, price text, category, image) is its field cut to 32000 characters: the whole field when it fits, its first 32000 characters otherwise. The two flag cells read back as the item's flags. Every cell fits. |
| Export.RowOfUnique | client/src/pages/admin/menu-management.tsx:493-504 | Any row whose cells are the item's fields cut to the limit, with flag cells that read back as the item's flags, is the item's exported row. |
| Export.ExportRowReadsBack | client/src/pages/admin/menu-management.tsx:493-504 | For an item whose fields fit in a cell, the row carries name, description, category and image unchanged. The booleans read back from "TRUE"/"FALSE". The price reads back as the same number or text. |
| Export.ExportMenu | client/src/pages/admin/menu-management.tsx:463-504 | An empty menu is refused with "No items to export". Otherwise there is one row per item, row `i` is the export of item `i` of the whole menu, and every cell fits. |
| Export.ExportRowsFollowMenu | client/src/pages/admin/menu-management.tsx:493-504 | Row `i` of the export is the exported row of item `i` of the whole menu, not of the filtered list. When that item's fields fit, its name, description, category and image are carried unchanged. |
| Upload.IsImageType | client/src/pages/admin/menu-management.tsx:381 | Definition: the MIME type starts with `image/`; see `Upload.CheckImageUpload` and `Upload.MimeTypeCaseSensitive`. |
| Upload.HasRawExtension | client/src/pages/admin/menu-management.tsx:378-382 | Definition: the lower-cased name ends in one of the seven RAW extensions; see `Upload.CheckImageUpload` and `Upload.NameCaseIrrelevant`. |
| Upload.CheckImageUpload | client/src/pages/admin/menu-management.tsx:374-401 | No file does nothing. A file is refused as too large exactly when it exceeds 200 KB. It is accepted exactly when it is within the limit and either its MIME type starts with `image/` or its lower-cased name ends in a RAW extension. |
| Upload.NameCaseIrrelevant | client/src/pages/admin/menu-management.tsx:378-382 | Upper- or lower-casing the file name does not change the outcome. |
| Upload.SizeBoundary | client/src/pages/admin/menu-management.tsx:384-385 | 204800 bytes passes the size check. 204801 bytes does not. |
| Upload.RawWithoutMimeType | client/src/pages/admin/menu-management.tsx:378-394 | `DSC_0042.NEF` with no MIME type is accepted. |
| Upload.MimeTypeCaseSensitive | client/src/pages/admin/menu-management.tsx:381 | `image/png` passes the type check and `IMAGE/PNG` does not. |

## Left out

- React state, queries, mutations, HTTP requests and the admin token read from
  local storage. These are I/O. The model takes the restaurant and the items
  as parameters.
- Toasts, console logging, the `FileReader` preview, workbook and file writing
  for the export, and scroll restoration. These are UI and foreign library
  calls. The model returns the rows and the check outcome instead.
- `fuzzyMatch` (lines 83-90): it is defined but never called.
- The commented-out derivation at lines 131-147.
- `Sorting.Compare`: price is compared on whole numbers. `parseFloat` of a
  price string is an input of the model. Fractions, NaN and the inconsistent
  comparator NaN produces are not modelled.
- `Sorting.LexCompare`: this is code-point order. `localeCompare` uses the
  locale's collation, which the model does not reproduce.
- `Sorting.Compare`: `createdAt` is an integer timestamp. `Date` parsing is not
  modelled.
- `Text.Lower`: upper- and lower-casing map ASCII letters only. Full Unicode
  case mapping is not modelled.
- `Listing.SearchIgnoresCase`: holds under the ASCII case map only. With full
  Unicode case mapping it fails: `"ß".toUpperCase()` is `"SS"`, so an item
  named "Straße" matches the search "ß" but not "SS".
- `Export.TruncateText`: lengths count Unicode code points (a Dafny `char`),
  while `str.length` and `substring` count UTF-16 code units. A text with
  characters outside the Basic Multilingual Plane can be longer than 32000
  UTF-16 units and still be kept whole by the model, where the page cuts it
  (20000 copies of U+1F600 are 40000 units, and the page keeps 16000 of
  them). A cut through a surrogate pair, which leaves a lone surrogate, is
  not representable. The same bound holds for `Export.CellOf`,
  `Export.CellsFit`, `Export.FitsInCells`, `Export.ToExportRow` and
  `Export.ExportMenu`.
- `Export.ToExportRow`: its cells and the 32000 limit count code points, as
  for `Export.TruncateText`.
- `Export.ExportMenu`: its cells and the 32000 limit count code points, as
  for `Export.TruncateText`.
- `Categories.ResolveCategories`: item categories are strings. The source's
  `typeof item.category === 'string'` guard for other values is not modelled.
- `Export.IntToDecimal`: this is `Number.prototype.toString` for whole numbers
  up to 2^53 only. Above 2^53, `toString` prints the shortest digits that read
  back as the same double, padded with zeros: `(2**60).toString()` is
  `"1152921504606847000"`, while the model prints every digit,
  `"1152921504606846976"`. Exponent notation at 1e21 and beyond, and
  fractions, are not modelled either.
- `Export.PriceText`: a numeric price goes through `Export.IntToDecimal`, so
  its text is exact only up to 2^53 in the same way. The read-back of
  `Export.ExportRowReadsBack` still holds in JavaScript, because the shortest
  digits parse back to the same double.
- The rest of the page: the item form, create/update/delete mutations, the
  bulk import, the dialogs and the layout. These are UI and HTTP.
- The other pages and the server: `dashboard.tsx`, `login.tsx`, the Mongoose
  schemas and the deployment configuration. These have no logic beyond form
  checks and persistence settings.

=== FILE: categories.dfy ===
/** Category handling of the menu page: `normalizeCategory`, the label a
    category string is given when categories are derived from the items, and
    the choice of the category list the page shows. */
module Categories {
  import opened Text
  import opened Menu
  import opened Seqs

  /** The list used when neither custom types nor derived labels apply. */
  const DefaultCategories: seq<string> := ["Starters", "Main Course", "Desserts", "Beverages"]

  // normalizeCategory

  /** `normalizeCategory`: lower-case, trim, turn every run of `[\s\-_]` into one
      space, turn every run of whitespace into one space, trim again. */
  function NormalizeCategory(cat: string): (r: string)
    ensures cat == [] ==> r == []
    ensures r == [] || (!IsSpace(r[0]) && !IsSpace(r[|r| - 1]))
    ensures forall i :: 0 <= i < |r| ==> !IsUpper(r[i])
    ensures forall i :: 0 <= i < |r| ==> r[i] != '-' && r[i] != '_'
    ensures forall i :: 0 <= i < |r| && IsSpace(r[i]) ==> r[i] == ' '
    ensures forall i, j :: 0 <= i < j < |r| && j == i + 1 ==> !(r[i] == ' ' && r[j] == ' ')
    ensures r == Trim(CollapseRuns(Separators, Lower(cat)))
  {
    if cat == [] then
      EmptyNormalForm();
      []
    else
      var collapsed := CollapseRuns(Spaces, CollapseRuns(Separators, Trim(Lower(cat))));
      NormalizeCategoryShape(cat);
      CollapsedLowerShape(Trim(collapsed));
      NormalizeCategoryCollapses(cat, collapsed);
      Trim(collapsed)
  }

  lemma EmptyNormalForm()
    ensures Trim(CollapseRuns(Separators, Lower([]))) == []
  {
    assert Lower([]) == [];
  }

  /** The second replacement (`/\s+/g`) finds nothing left to do, and the
      first trim makes no difference to the last. */
  lemma NormalizeCategoryCollapses(cat: string, collapsed: string)
    requires collapsed == CollapseRuns(Spaces, CollapseRuns(Separators, Trim(Lower(cat))))
    ensures Trim(collapsed) == Trim(CollapseRuns(Separators, Lower(cat)))
  {
    SecondPassIsIdle(Trim(Lower(cat)));
    TrimCollapseTrim(Lower(cat));
  }

  /** The second replacement (`/\s+/g`) finds nothing left to do. */
  lemma SecondPassIsIdle(t: string)
    ensures CollapseRuns(Spaces, CollapseRuns(Separators, t)) == CollapseRuns(Separators, t)
  {
    CollapseRunsCollapsed(t);
    CollapseRunsOfCollapsed(Spaces, CollapseRuns(Separators, t));
  }

  /** The normalized category is the lower-cased derived label, trimmed: the
      normal form and the derived heading differ only in case and in the
      blanks at their ends. */
  lemma NormalizedIsTrimmedLabel(cat: string)
    ensures NormalizeCategory(cat) == Trim(Lower(DerivedLabel(cat)))
  {
    LowerDerivedLabel(cat);
  }

  /** A collapsed string without upper-case letters has no `-` or `_`, and
      its only blank is a single space between non-blanks. */
  lemma CollapsedLowerShape(r: string)
    requires Collapsed(r) && NoUpper(r)
    ensures forall i :: 0 <= i < |r| ==> !IsUpper(r[i])
    ensures forall i :: 0 <= i < |r| ==> r[i] != '-' && r[i] != '_'
    ensures forall i :: 0 <= i < |r| && IsSpace(r[i]) ==> r[i] == ' '
    ensures forall i, j :: 0 <= i < j < |r| && j == i + 1 ==> !(r[i] == ' ' && r[j] == ' ')
  {
  }

  /** The shape of the string `normalizeCategory` trims last: collapsed and
      free of upper-case letters. */
  lemma NormalizeCategoryShape(cat: string)
    ensures var c := CollapseRuns(Spaces, CollapseRuns(Separators, Trim(Lower(cat))));
      Collapsed(Trim(c)) && NoUpper(Trim(c))
  {
    var l := Lower(cat);
    var t := Trim(l);
    var k := TrimInfix(l);
    NoUpperInfix(l, k, k + |t|);
    var c := CollapseRuns(Separators, t);
    CollapseRunsCollapsed(t);
    CollapseRunsNoUpper(Separators, t);
    CollapseRunsOfCollapsed(Spaces, c);
    TrimKeepsCollapsed(c);
    TrimKeepsNoUpper(c);
  }

  /** Trimming keeps a collapsed string collapsed. */
  lemma TrimKeepsCollapsed(c: string)
    requires Collapsed(c)
    ensures Collapsed(Trim(c))
  {
    var r := TrimStart(c);
    var d := |c| - |r|;
    CollapsedInfix(c, d, |c|);
    assert c[d..|c|] == r;
    var e := TrimEnd(r);
    CollapsedInfix(r, 0, |e|);
    assert r[0..|e|] == e;
  }

  /** Trimming keeps a string free of upper-case letters. */
  lemma TrimKeepsNoUpper(c: string)
    requires NoUpper(c)
    ensures NoUpper(Trim(c))
  {
    var r := TrimStart(c);
    var d := |c| - |r|;
    NoUpperInfix(c, d, |c|);
    assert c[d..|c|] == r;
    var e := TrimEnd(r);
    NoUpperInfix(r, 0, |e|);
    assert r[0..|e|] == e;
  }

  lemma NoUpperInfix(s: string, a: nat, b: nat)
    requires a <= b <= |s| && NoUpper(s)
    ensures NoUpper(s[a..b])
  {
    assert forall i :: 0 <= i < b - a ==> s[a..b][i] == s[a + i];
  }

  lemma CollapsedInfix(s: string, a: nat, b: nat)
    requires a <= b <= |s| && Collapsed(s)
    ensures Collapsed(s[a..b])
  {
    var t := s[a..b];
    assert forall i :: 0 <= i < |t| ==> t[i] == s[a + i];
    forall i, j | 0 <= i < j < |t| && j == i + 1
      ensures !(IsSeparator(t[i]) && IsSeparator(t[j]))
    {
      assert t[i] == s[a + i] && t[j] == s[a + j];
    }
  }

  lemma {:induction false} CollapseRunsNoUpper(k: CharClass, s: string)
    requires NoUpper(s)
    ensures NoUpper(CollapseRuns(k, s))
    decreases |s|
  {
    if s != [] {
      if InClass(k, s[0]) {
        var d := DropRun(k, s);
        assert forall i :: 0 <= i < |d| ==> d[i] == s[|s| - |d| + i];
        CollapseRunsNoUpper(k, d);
      } else {
        assert forall i :: 0 <= i < |s| - 1 ==> s[1..][i] == s[i + 1];
        CollapseRunsNoUpper(k, s[1..]);
      }
    }
  }

  /** The conditions `NormalizeCategory` promises make a string collapsed. */
  lemma NormalizedIsCollapsed(r: string)
    requires forall i :: 0 <= i < |r| ==> r[i] != '-' && r[i] != '_'
    requires forall i :: 0 <= i < |r| && IsSpace(r[i]) ==> r[i] == ' '
    requires forall i, j :: 0 <= i < j < |r| && j == i + 1 ==> !(r[i] == ' ' && r[j] == ' ')
    ensures Collapsed(r)
  {
    forall i, j | 0 <= i < j < |r| && j == i + 1
      ensures !(IsSeparator(r[i]) && IsSeparator(r[j]))
    {
    }
  }

  /** Normalizing is idempotent: a normalized category is its own normal form. */
  lemma NormalizeCategoryIdempotent(cat: string)
    ensures NormalizeCategory(NormalizeCategory(cat)) == NormalizeCategory(cat)
  {
    var y := NormalizeCategory(cat);
    if y != [] {
      LowerOfNoUpper(y);
      TrimOfTrimmed(y);
      NormalizedIsCollapsed(y);
      CollapseRunsOfCollapsed(Separators, y);
      CollapseRunsOfCollapsed(Spaces, y);
    }
  }

  // Labels derived from item categories

  /** `word.charAt(0).toUpperCase() + word.slice(1)` */
  function Capitalize(w: string): string
  {
    if w == [] then [] else [ToUpperChar(w[0])] + w[1..]
  }

  function CapitalizeAll(ws: seq<string>): (r: seq<string>)
    ensures |r| == |ws|
    ensures forall i :: 0 <= i < |ws| ==> r[i] == Capitalize(ws[i])
  {
    seq(|ws|, i requires 0 <= i < |ws| => Capitalize(ws[i]))
  }

  /** The label an item category is given when categories are derived from
      the items: lower-case, split on separator runs, capitalize each piece,
      join with single spaces. Nothing is trimmed, so a leading or trailing
      separator run leaves a leading or trailing space. */
  function DerivedLabel(category: string): string
  {
    JoinWords(CapitalizeAll(Split(Lower(category))))
  }

  lemma LowerCapitalize(w: string)
    requires NoUpper(w)
    ensures Lower(Capitalize(w)) == w
  {
    if w != [] {
      var head, tail := w[0], w[1..];
      assert !IsUpper(head);
      LowerUpperChar(head);
      LowerConcat([ToUpperChar(head)], tail);
      assert Lower([ToUpperChar(head)]) == [head];
      NoUpperTail(w);
      LowerOfNoUpper(tail);
      assert w == [head] + tail;
    }
  }

  lemma NoUpperTail(w: string)
    requires w != [] && NoUpper(w)
    ensures NoUpper(w[1..])
  {
    assert forall i :: 0 <= i < |w| - 1 ==> w[1..][i] == w[i + 1];
  }

  /** The pieces of a string without upper-case letters have none either. */
  lemma {:induction false} SplitNoUpper(s: string)
    requires NoUpper(s)
    ensures forall i :: 0 <= i < |Split(s)| ==> NoUpper(Split(s)[i])
    decreases |s|
  {
    var w := TakeWord(s);
    var rest := AfterWord(s);
    NoUpperConcat(w, rest);
    if rest == [] {
      OneWord(s);
    } else {
      var d := DropRun(Separators, rest);
      NoUpperSuffix(rest, d);
      SplitNoUpper(d);
      SplitStep(s);
      AllNoUpperCons(w, Split(d));
    }
  }

  lemma NoUpperSuffix(s: string, d: string)
    requires NoUpper(s) && |d| <= |s| && d == s[|s| - |d|..]
    ensures NoUpper(d)
  {
    assert forall i :: 0 <= i < |d| ==> d[i] == s[|s| - |d| + i];
  }

  lemma AllNoUpperCons(w: string, ws: seq<string>)
    requires NoUpper(w)
    requires forall i :: 0 <= i < |ws| ==> NoUpper(ws[i])
    ensures forall i :: 0 <= i < |ws| + 1 ==> NoUpper(([w] + ws)[i])
  {
    forall i | 0 <= i < |ws| + 1
      ensures NoUpper(([w] + ws)[i])
    {
      if i > 0 {
        assert ([w] + ws)[i] == ws[i - 1];
      }
    }
  }

  lemma NoUpperConcat(a: string, b: string)
    requires NoUpper(a + b)
    ensures NoUpper(a) && NoUpper(b)
  {
    assert forall i :: 0 <= i < |a| ==> (a + b)[i] == a[i];
    assert forall i :: 0 <= i < |b| ==> (a + b)[|a| + i] == b[i];
  }

  /** Lower-casing a derived label gives back the category with every
      separator run replaced by one space, lower-cased. */
  lemma LowerDerivedLabel(category: string)
    ensures Lower(DerivedLabel(category)) == CollapseRuns(Separators, Lower(category))
  {
    var ws := Split(Lower(category));
    SplitNoUpper(Lower(category));
    forall i | 0 <= i < |ws|
      ensures Lower(CapitalizeAll(ws)[i]) == ws[i]
    {
      LowerCapitalize(ws[i]);
    }
    LowerJoin(CapitalizeAll(ws), ws);
    JoinSplitIsCollapse(Lower(category));
  }

  /** Two categories get the same derived label exactly when they agree after
      lower-casing and replacing each separator run by one space: case, and
      the kind and length of separator runs, do not matter; leading and
      trailing runs do. */
  lemma SameLabelIff(a: string, b: string)
    ensures DerivedLabel(a) == DerivedLabel(b) <==>
            CollapseRuns(Separators, Lower(a)) == CollapseRuns(Separators, Lower(b))
  {
    LowerDerivedLabel(a);
    LowerDerivedLabel(b);
    SplitOfCollapse(Lower(a));
    SplitOfCollapse(Lower(b));
  }

  /** The label of a category that lower-cases to two words around one
      separator character. */
  lemma SplitTwoWords(x: string, w1: string, c: char, w2: string)
    requires x == w1 + [c] + w2
    requires NoSeparator(w1) && IsSeparator(c) && NoSeparator(w2)
    ensures Split(x) == [w1, w2]
  {
    CollapseOneSeparator(w1, c, w2);
    SplitOfCollapse(x);
    SplitOfWordSpace(w1, w2);
    WordIsOneWord(w2);
  }

  lemma JoinTwo(a: string, b: string)
    ensures JoinWords([a, b]) == a + " " + b
  {
    JoinCons(a, [b]);
    assert [a] + [b] == [a, b];
  }

  lemma TwoWordLabel(category: string, w1: string, c: char, w2: string)
    requires Lower(category) == w1 + [c] + w2
    requires NoSeparator(w1) && IsSeparator(c) && NoSeparator(w2)
    ensures DerivedLabel(category) == Capitalize(w1) + " " + Capitalize(w2)
  {
    SplitTwoWords(Lower(category), w1, c, w2);
    assert CapitalizeAll([w1, w2]) == [Capitalize(w1), Capitalize(w2)];
    JoinTwo(Capitalize(w1), Capitalize(w2));
  }

  /** `"main-course"`, `"Main_Course"` and `"MAIN COURSE"` are all labelled
      `"Main Course"`. */
  lemma MainCourseLabels()
    ensures DerivedLabel("main-course") == "Main Course"
    ensures DerivedLabel("Main_Course") == "Main Course"
    ensures DerivedLabel("MAIN COURSE") == "Main Course"
  {
    HyphenatedMainCourse();
    UnderscoredMainCourse();
    ShoutedMainCourse();
  }

  lemma HyphenatedMainCourse()
    ensures DerivedLabel("main-course") == "Main Course"
  {
    CapitalizedMainCourse();
    HyphenatedLower();
    TwoWordLabel("main-course", "main", '-', "course");
  }

  lemma UnderscoredMainCourse()
    ensures DerivedLabel("Main_Course") == "Main Course"
  {
    CapitalizedMainCourse();
    UnderscoredLower();
    TwoWordLabel("Main_Course", "main", '_', "course");
  }

  lemma ShoutedMainCourse()
    ensures DerivedLabel("MAIN COURSE") == "Main Course"
  {
    CapitalizedMainCourse();
    ShoutedLower();
    TwoWordLabel("MAIN COURSE", "main", ' ', "course");
  }

  lemma HyphenatedLower()
    ensures Lower("main-course") == "main" + ['-'] + "course"
  {
  }

  lemma UnderscoredLower()
    ensures Lower("Main_Course") == "main" + ['_'] + "course"
  {
  }

  lemma ShoutedLower()
    ensures Lower("MAIN COURSE") == "main" + [' '] + "course"
  {
  }

  lemma CapitalizedMainCourse()
    ensures Capitalize("main") + " " + Capitalize("course") == "Main Course"
  {
  }

  /** A category that starts with a separator gets a label that starts with a
      space: the label is not trimmed, so `" starters"` is not labelled
      `"Starters"`. */
  lemma LeadingSeparatorLabel(category: string)
    requires category != [] && IsSeparator(category[0])
    ensures DerivedLabel(category) != [] && DerivedLabel(category)[0] == ' '
  {
    var x := Lower(category);
    LowerDerivedLabel(category);
    CollapseRunsOfRun(x);
    LowerStartsWithSpace(DerivedLabel(category), CollapseRuns(Separators, DropRun(Separators, x)));
  }

  lemma LowerStartsWithSpace(l: string, t: string)
    requires Lower(l) == " " + t
    ensures l != [] && l[0] == ' '
  {
    assert ToLowerChar(l[0]) == ' ';
  }

  lemma LeadingSpaceStarters()
    ensures DerivedLabel(" starters") != "Starters"
  {
    LeadingSeparatorLabel(" starters");
  }

  // Resolving the category list

  /** The derivation keeps an item's category when it is not blank after trimming. */
  predicate IsValidCategory(category: string)
  {
    Trim(category) != []
  }

  /** The categories of the items whose category is valid, in item order
      (`validCategories`). */
  function ValidCategories(items: seq<Item>): (r: seq<string>)
    ensures |r| <= |items|
    decreases |items|
  {
    if items == [] then []
    else
      var c, rest := items[0].category, ValidCategories(items[1..]);
      if IsValidCategory(c) then [c] + rest else rest
  }

  /** The label item `it` adds to the derived list, if any. */
  function Contribution(it: Item): (r: Option<string>)
    ensures r.Some? <==> IsValidCategory(it.category)
  {
    if IsValidCategory(it.category) then Some(DerivedLabel(it.category)) else None
  }

  function Contributions(items: seq<Item>): (r: seq<Option<string>>)
    ensures |r| == |items|
    ensures forall i :: 0 <= i < |items| ==> r[i] == Contribution(items[i])
  {
    seq(|items|, i requires 0 <= i < |items| => Contribution(items[i]))
  }

  /** Some item contributes label `l`. */
  predicate HasSource(items: seq<Item>, l: string)
  {
    Some(l) in Contributions(items)
  }

  /** The index of the first item that contributes label `l`. */
  function FirstSource(items: seq<Item>, l: string): (r: nat)
    requires HasSource(items, l)
    ensures r < |items| && Contribution(items[r]) == Some(l)
    ensures forall i :: 0 <= i < r ==> Contribution(items[i]) != Some(l)
  {
    var cs := Contributions(items);
    var r := FirstIndex(cs, Some(l));
    NotInPrefix(cs, Some(l), r);
    FirstContribution(cs, items, l, r);
    r
  }

  /** An index that is first in the contribution list is first among the
      items. */
  lemma FirstContribution(cs: seq<Option<string>>, items: seq<Item>, l: string, r: nat)
    requires |cs| == |items| && forall i :: 0 <= i < |items| ==> cs[i] == Contribution(items[i])
    requires r < |cs| && cs[r] == Some(l) && forall i :: 0 <= i < r ==> cs[i] != Some(l)
    ensures Contribution(items[r]) == Some(l)
    ensures forall i :: 0 <= i < r ==> Contribution(items[i]) != Some(l)
  {
  }

  predicate HasValidCategory(items: seq<Item>)
  {
    exists i :: 0 <= i < |items| && IsValidCategory(items[i].category)
  }

  /** The formatted labels of the items with a valid category, in item order
      (the valid categories mapped through the label formatting). */
  function FormattedCategories(items: seq<Item>): (r: seq<string>)
    ensures forall l :: l in r <==> HasSource(items, l)
  {
    Somes(Contributions(items))
  }

  /** The formatted labels are the labels of the valid categories: one per
      item with a valid category, in item order, duplicates kept. */
  lemma FormattedCategoriesOfValid(items: seq<Item>)
    ensures var r, v := FormattedCategories(items), ValidCategories(items);
      |r| == |v| && forall k :: 0 <= k < |r| ==> r[k] == DerivedLabel(v[k])
  {
    LabelsOfContributions(Contributions(items), items);
  }

  lemma {:induction false} LabelsOfContributions(cs: seq<Option<string>>, items: seq<Item>)
    requires |cs| == |items| && forall i :: 0 <= i < |items| ==> cs[i] == Contribution(items[i])
    ensures var r, v := Somes(cs), ValidCategories(items);
      |r| == |v| && forall k :: 0 <= k < |r| ==> r[k] == DerivedLabel(v[k])
    decreases |items|
  {
    if items != [] {
      var x, t := items[0], items[1..];
      var ct := cs[1..];
      forall i | 0 <= i < |t|
        ensures ct[i] == Contribution(t[i])
      {
        assert ct[i] == cs[i + 1] && t[i] == items[i + 1];
      }
      LabelsOfContributions(ct, t);
      var r', v' := Somes(ct), ValidCategories(t);
      assert cs[0] == Contribution(x);
      ContributionStep(cs, items, r', v');
    }
  }

  lemma ContributionStep(cs: seq<Option<string>>, items: seq<Item>, r': seq<string>, v': seq<string>)
    requires items != [] && |cs| == |items| && cs[0] == Contribution(items[0])
    requires r' == Somes(cs[1..]) && v' == ValidCategories(items[1..])
    requires |r'| == |v'| && forall k :: 0 <= k < |r'| ==> r'[k] == DerivedLabel(v'[k])
    ensures var r, v := Somes(cs), ValidCategories(items);
      |r| == |v| && forall k :: 0 <= k < |r| ==> r[k] == DerivedLabel(v[k])
  {
    var c := items[0].category;
    SomesCons(cs);
    ValidCategoriesCons(items);
    if IsValidCategory(c) {
      assert Somes(cs) == [DerivedLabel(c)] + r';
      LabelsCons(DerivedLabel(c), c, r', v');
    } else {
      assert Somes(cs) == r';
    }
  }

  lemma ValidCategoriesCons(items: seq<Item>)
    requires items != []
    ensures ValidCategories(items) ==
      (if IsValidCategory(items[0].category) then [items[0].category] else []) + ValidCategories(items[1..])
  {
  }

  lemma LabelsCons(l: string, c: string, r: seq<string>, v: seq<string>)
    requires l == DerivedLabel(c)
    requires |r| == |v| && forall k :: 0 <= k < |r| ==> r[k] == DerivedLabel(v[k])
    ensures |[l] + r| == |[c] + v| && forall k :: 0 <= k < |[l] + r| ==> ([l] + r)[k] == DerivedLabel(([c] + v)[k])
  {
    MapCons(DerivedLabel, c, r, v);
  }

  /** The page derives its categories from the items. */
  predicate DerivesFromItems(restaurant: Restaurant, items: seq<Item>)
  {
    |restaurant.customTypes| == 0 && restaurant.mongoUri != [] && HasValidCategory(items)
  }

  /** The category list the page shows. Custom types win whenever there are
      any; otherwise, for a restaurant with a `mongoUri` and at least one item,
      the distinct formatted labels of the items with a valid category; when
      that list is empty, or neither applies, the default list. */
  function ResolveCategories(restaurant: Restaurant, items: seq<Item>): (r: seq<string>)
    ensures |restaurant.customTypes| > 0 ==> r == restaurant.customTypes
    ensures |restaurant.customTypes| == 0 && !DerivesFromItems(restaurant, items) ==>
              r == DefaultCategories
    ensures DerivesFromItems(restaurant, items) ==>
              && NoDuplicates(r)
              && (forall l :: l in r <==> HasSource(items, l))
              && (forall i, j :: 0 <= i < j < |r| ==> FirstSource(items, r[i]) < FirstSource(items, r[j]))
  {
    if |restaurant.customTypes| > 0 then restaurant.customTypes
    else if restaurant.mongoUri != [] && |items| > 0 then
      var extracted := Dedup(FormattedCategories(items));
      ResolveDerived(items, extracted);
      if |extracted| > 0 then extracted else DefaultCategories
    else DefaultCategories
  }

  lemma ResolveDerived(items: seq<Item>, extracted: seq<string>)
    requires extracted == Dedup(FormattedCategories(items))
    ensures |extracted| > 0 <==> HasValidCategory(items)
    ensures forall i, j :: 0 <= i < j < |extracted| ==>
              HasSource(items, extracted[i]) && HasSource(items, extracted[j]) &&
              FirstSource(items, extracted[i]) < FirstSource(items, extracted[j])
  {
    var cs := Contributions(items);
    var formatted := FormattedCategories(items);
    if HasValidCategory(items) {
      var i :| 0 <= i < |items| && IsValidCategory(items[i].category);
      assert cs[i] == Some(DerivedLabel(items[i].category));
      assert DerivedLabel(items[i].category) in formatted;
    }
    if |extracted| > 0 {
      assert Some(extracted[0]) in cs;
      var k :| 0 <= k < |cs| && cs[k] == Some(extracted[0]);
      assert IsValidCategory(items[k].category);
    }
    forall i, j | 0 <= i < j < |extracted|
      ensures HasSource(items, extracted[i]) && HasSource(items, extracted[j]) &&
              FirstSource(items, extracted[i]) < FirstSource(items, extracted[j])
    {
      SomesOrder(cs, extracted[i], extracted[j]);
    }
  }
}

=== FILE: export.dfy ===
/** The spreadsheet export of the menu: one row per item with the columns of
    the import template, every cell cut to the cell-length ceiling. */
module Export {
  import opened Menu

  /** The ceiling applied to every exported cell, below the spreadsheet
      format's own limit of 32,767 characters. */
  const MaxCellLength: nat := 32000

  /** `truncateText`: the text itself when it fits, otherwise its first
      `maxLength` characters. */
  function TruncateText(text: string, maxLength: nat): (r: string)
    ensures |r| <= maxLength && |r| <= |text| && r == text[..|r|]
    ensures |text| <= maxLength ==> r == text
    ensures |text| > maxLength ==> |r| == maxLength
  {
    if text == [] then []
    else if |text| > maxLength then text[..maxLength]
    else text
  }

  // Numbers and booleans as text

  predicate IsDigit(c: char) { '0' <= c <= '9' }

  predicate AllDigits(s: string)
  {
    forall i :: 0 <= i < |s| ==> IsDigit(s[i])
  }

  function DigitChar(d: nat): (c: char)
    requires d < 10
    ensures IsDigit(c)
  {
    ('0' as int + d) as char
  }

  function DigitValue(c: char): nat
    requires IsDigit(c)
  {
    (c as int - '0' as int) as nat
  }

  /** The decimal digits of `n`, without leading zeros. */
  function NatToDecimal(n: nat): (r: string)
    ensures r != [] && AllDigits(r)
    ensures r[0] == '0' ==> n == 0
    decreases n
  {
    if n < 10 then [DigitChar(n)]
    else NatToDecimal(n / 10) + [DigitChar(n % 10)]
  }

  /** The value of a string of decimal digits. */
  function ParseNat(s: string): nat
    requires AllDigits(s)
    decreases |s|
  {
    if s == [] then 0
    else 10 * ParseNat(s[..|s| - 1]) + DigitValue(s[|s| - 1])
  }

  lemma {:induction false} ParseNatOfDecimal(n: nat)
    ensures ParseNat(NatToDecimal(n)) == n
    decreases n
  {
    if n >= 10 {
      ParseNatOfDecimal(n / 10);
      var s := NatToDecimal(n / 10) + [DigitChar(n % 10)];
      assert s[..|s| - 1] == NatToDecimal(n / 10);
    }
  }

  /** `Number.prototype.toString` for a whole number. */
  function IntToDecimal(n: int): (r: string)
    ensures r != []
  {
    if n < 0 then "-" + NatToDecimal(-n) else NatToDecimal(n)
  }

  /** Reads back an optional minus sign followed by digits. */
  function ParseInt(s: string): Option<int>
  {
    if s != [] && s[0] == '-' then
      if |s| > 1 && AllDigits(s[1..]) then Some(-(ParseNat(s[1..]) as int)) else None
    else if s != [] && AllDigits(s) then Some(ParseNat(s))
    else None
  }

  /** Reading back a whole number's text gives the number. */
  lemma ParseIntOfDecimal(n: int)
    ensures ParseInt(IntToDecimal(n)) == Some(n)
  {
    if n < 0 {
      var d := NatToDecimal(-n);
      ParseNatOfDecimal(-n);
      var s := "-" + d;
      assert s == IntToDecimal(n) && s[0] == '-' && s[1..] == d;
    } else {
      var d := NatToDecimal(n);
      ParseNatOfDecimal(n);
      assert IsDigit(d[0]);
    }
  }

  /** `price.toString()`: a price stored as text is exported as that text. */
  function PriceText(p: Price): string
  {
    match p
    case PriceText(text, _) => text
    case PriceNumber(amount) => IntToDecimal(amount)
  }

  function BoolCell(b: bool): string
  {
    if b then "TRUE" else "FALSE"
  }

  function ParseBoolCell(s: string): Option<bool>
  {
    if s == "TRUE" then Some(true) else if s == "FALSE" then Some(false) else None
  }

  lemma ParseBoolCellOfCell(b: bool)
    ensures ParseBoolCell(BoolCell(b)) == Some(b)
  {
  }

  // Rows

  /** One exported row, with the import template's columns. */
  datatype ExportRow = ExportRow(
    name: string,
    description: string,
    price: string,
    category: string,
    isVeg: string,
    image: string,
    isAvailable: string)

  predicate CellsFit(row: ExportRow)
  {
    && |row.name| <= MaxCellLength && |row.description| <= MaxCellLength
    && |row.price| <= MaxCellLength && |row.category| <= MaxCellLength
    && |row.isVeg| <= MaxCellLength && |row.image| <= MaxCellLength
    && |row.isAvailable| <= MaxCellLength
  }

  /** `cell` is `text` cut to the ceiling: all of it when it fits, otherwise
      its first `MaxCellLength` characters. */
  predicate CellOf(cell: string, text: string)
  {
    |cell| == (if |text| <= MaxCellLength then |text| else MaxCellLength) && cell == text[..|cell|]
  }

  /** `row` is the export of `it`: each text cell is its field cut to the
      ceiling, the price cell is the price's text cut likewise, and the two
      flag cells read back as the item's flags. */
  predicate RowOf(row: ExportRow, it: Item)
  {
    && CellOf(row.name, it.name) && CellOf(row.description, it.description)
    && CellOf(row.price, PriceText(it.price)) && CellOf(row.category, it.category)
    && CellOf(row.image, it.image)
    && ParseBoolCell(row.isVeg) == Some(it.isVeg)
    && ParseBoolCell(row.isAvailable) == Some(it.isAvailable)
  }

  function ToExportRow(it: Item): (row: ExportRow)
    ensures RowOf(row, it)
    ensures CellsFit(row)
  {
    ParseBoolCellOfCell(it.isVeg);
    ParseBoolCellOfCell(it.isAvailable);
    ExportRow(
      TruncateText(it.name, MaxCellLength),
      TruncateText(it.description, MaxCellLength),
      TruncateText(PriceText(it.price), MaxCellLength),
      TruncateText(it.category, MaxCellLength),
      BoolCell(it.isVeg),
      TruncateText(it.image, MaxCellLength),
      BoolCell(it.isAvailable))
  }

  /** An item has exactly one export row. */
  lemma RowOfUnique(row: ExportRow, it: Item)
    requires RowOf(row, it)
    ensures row == ToExportRow(it)
  {
    var r := ToExportRow(it);
    assert row.isVeg == r.isVeg;
    assert row.isAvailable == r.isAvailable;
  }

  /** An item whose text fields fit in a cell. */
  predicate FitsInCells(it: Item)
  {
    && |it.name| <= MaxCellLength && |it.description| <= MaxCellLength
    && |PriceText(it.price)| <= MaxCellLength && |it.category| <= MaxCellLength
    && |it.image| <= MaxCellLength
  }

  /** For an item whose fields fit, the row carries every exported field
      unchanged: reading it back gives the text fields, the booleans and a
      numeric price. */
  lemma ExportRowReadsBack(it: Item)
    requires FitsInCells(it)
    ensures var row := ToExportRow(it);
      && row.name == it.name && row.description == it.description
      && row.category == it.category && row.image == it.image
      && ParseBoolCell(row.isVeg) == Some(it.isVeg)
      && ParseBoolCell(row.isAvailable) == Some(it.isAvailable)
      && (it.price.PriceNumber? ==> ParseInt(row.price) == Some(it.price.amount))
      && (it.price.PriceText? ==> row.price == it.price.text)
  {
    ParseBoolCellOfCell(it.isVeg);
    ParseBoolCellOfCell(it.isAvailable);
    if it.price.PriceNumber? {
      ParseIntOfDecimal(it.price.amount);
    }
  }

  /** `handleExport`: the whole menu (not the filtered list), one row per
      item in menu order; an empty menu is refused with "No items to export". */
  function ExportMenu(items: seq<Item>): (r: Result<seq<ExportRow>, string>)
    ensures r.Failure? <==> items == []
    ensures r.Failure? ==> r.error == "No items to export"
    ensures r.Success? ==> |r.value| == |items| && forall i :: 0 <= i < |items| ==> RowOf(r.value[i], items[i])
    ensures r.Success? ==> forall i :: 0 <= i < |items| ==> CellsFit(r.value[i])
  {
    if items == [] then Failure("No items to export")
    else Success(seq(|items|, i requires 0 <= i < |items| => ToExportRow(items[i])))
  }

  /** Row `i` of the export is the row of item `i` of the menu; when the
      item's fields fit, the row carries them unchanged. */
  lemma ExportRowsFollowMenu(items: seq<Item>, i: nat)
    requires i < |items|
    ensures ExportMenu(items).Success?
    ensures ExportMenu(items).value[i] == ToExportRow(items[i])
    ensures FitsInCells(items[i]) ==>
      var row := ExportMenu(items).value[i];
      row.name == items[i].name && row.description == items[i].description &&
      row.category == items[i].category && row.image == items[i].image
  {
    RowOfUnique(ExportMenu(items).value[i], items[i]);
  }
}

=== FILE: listing.dfy ===
/** The filtered and sorted list of menu items the page shows: a search over
    name, description and category, a category filter, a diet filter and an
    availability filter, followed by the stable sort. */
module Listing {
  import opened Text
  import opened Menu
  import opened Sorting

  datatype VegFilter = AllDiets | VegOnly | NonVegOnly
  datatype AvailabilityFilter = AllItems | AvailableOnly | UnavailableOnly

  /** The state of the list controls. `category` is the selected category,
      or the sentinel `"all"`. */
  datatype Query = Query(
    search: string,
    category: string,
    veg: VegFilter,
    availability: AvailabilityFilter,
    sort: SortSpec)

  /** The value of the category filter that selects every category. */
  const AllCategories: string := "all"

  /** The lower-cased search text occurs in the lower-cased name, description
      or category. */
  predicate MatchesSearch(search: string, it: Item)
  {
    var q := Lower(search);
    Includes(Lower(it.name), q) || Includes(Lower(it.description), q) || Includes(Lower(it.category), q)
  }

  /** The category filter compares lower-cased strings, without trimming. */
  predicate MatchesCategory(filter: string, it: Item)
  {
    filter == AllCategories || Lower(it.category) == Lower(filter)
  }

  predicate MatchesVeg(f: VegFilter, it: Item)
  {
    match f
    case AllDiets => true
    case VegOnly => it.isVeg
    case NonVegOnly => !it.isVeg
  }

  predicate MatchesAvailability(f: AvailabilityFilter, it: Item)
  {
    match f
    case AllItems => true
    case AvailableOnly => it.isAvailable
    case UnavailableOnly => !it.isAvailable
  }

  predicate Matches(q: Query, it: Item)
  {
    MatchesSearch(q.search, it) && MatchesCategory(q.category, it)
    && MatchesVeg(q.veg, it) && MatchesAvailability(q.availability, it)
  }

  /** The search is a case-insensitive substring search: an item matches
      exactly when the lower-cased search text occurs at some position of one
      of the three lower-cased fields. */
  lemma MatchesSearchIff(search: string, it: Item)
    ensures MatchesSearch(search, it) <==>
            (exists i :: OccursAt(Lower(it.name), Lower(search), i))
            || (exists i :: OccursAt(Lower(it.description), Lower(search), i))
            || (exists i :: OccursAt(Lower(it.category), Lower(search), i))
  {
    IncludesIffOccurs(Lower(it.name), Lower(search));
    IncludesIffOccurs(Lower(it.description), Lower(search));
    IncludesIffOccurs(Lower(it.category), Lower(search));
  }

  /** Searching for a text or for its upper- or lower-cased form is the same. */
  lemma SearchIgnoresCase(search: string, it: Item)
    ensures MatchesSearch(Lower(search), it) == MatchesSearch(search, it)
    ensures MatchesSearch(Upper(search), it) == MatchesSearch(search, it)
  {
    LowerOfNoUpper(Lower(search));
    LowerUpper(search);
  }

  /** An empty search matches every item. */
  lemma EmptySearchMatches(it: Item)
    ensures MatchesSearch("", it)
  {
    assert Lower("") == "";
    IncludesEmpty(Lower(it.name));
  }

  /** The items of `items` that match `q`, in their order. */
  function Select(q: Query, items: seq<Item>): (r: seq<Item>)
    ensures |r| <= |items|
    decreases |items|
  {
    if items == [] then []
    else (if Matches(q, items[0]) then [items[0]] else []) + Select(q, items[1..])
  }

  /** Each item occurs in the selection as often as in the list when it
      matches, and not at all otherwise. */
  lemma {:induction false} SelectCount(q: Query, items: seq<Item>)
    ensures forall x :: multiset(Select(q, items))[x] == if Matches(q, x) then multiset(items)[x] else 0
    decreases |items|
  {
    if items != [] {
      SelectCount(q, items[1..]);
      assert items == [items[0]] + items[1..];
    }
  }

  lemma SelectCons(q: Query, x: Item, s: seq<Item>)
    ensures Select(q, [x] + s) == (if Matches(q, x) then [x] else []) + Select(q, s)
  {
    assert ([x] + s)[1..] == s;
  }

  /** Selecting and taking the items equal to `z` under the comparator commute. */
  lemma {:induction false} SelectTies(q: Query, spec: SortSpec, z: Item, s: seq<Item>)
    ensures TiesOf(spec, z, Select(q, s)) == Select(q, TiesOf(spec, z, s))
    decreases |s|
  {
    if s != [] {
      var x, t := s[0], s[1..];
      assert s == [x] + t;
      SelectTies(q, spec, z, t);
      var ties, picked := TiesOf(spec, z, t), Select(q, t);
      SelectCons(q, x, t);
      TiesOfCons(spec, z, x, t);
      if Matches(q, x) {
        assert Select(q, s) == [x] + picked;
        TiesOfCons(spec, z, x, picked);
        if Tied(spec, x, z) {
          assert TiesOf(spec, z, s) == [x] + ties;
          SelectCons(q, x, ties);
        } else {
          assert TiesOf(spec, z, s) == ties;
          assert TiesOf(spec, z, Select(q, s)) == TiesOf(spec, z, picked);
        }
      } else {
        assert Select(q, s) == picked;
        if Tied(spec, x, z) {
          assert TiesOf(spec, z, s) == [x] + ties;
          SelectCons(q, x, ties);
          assert Select(q, [x] + ties) == Select(q, ties);
        } else {
          assert TiesOf(spec, z, s) == ties;
        }
      }
    }
  }

  /** `filteredAndSortedMenuItems`: the matching items, sorted stably. */
  function FilterAndSort(q: Query, items: seq<Item>): (r: seq<Item>)
    ensures forall x :: multiset(r)[x] == if Matches(q, x) then multiset(items)[x] else 0
    ensures Sorted(q.sort, r)
    ensures forall z :: TiesOf(q.sort, z, r) == Select(q, TiesOf(q.sort, z, items))
  {
    var selected := Select(q, items);
    SelectCount(q, items);
    SortStable(q.sort, selected);
    assert forall z :: TiesOf(q.sort, z, selected) == Select(q, TiesOf(q.sort, z, items)) by {
      forall z
        ensures TiesOf(q.sort, z, selected) == Select(q, TiesOf(q.sort, z, items))
      {
        SelectTies(q, q.sort, z, items);
      }
    }
    Sort(q.sort, selected)
  }

  /** With every control at its neutral value the list is a stable
      rearrangement of all the items. */
  lemma NeutralQueryKeepsAll(spec: SortSpec, items: seq<Item>)
    ensures var r := FilterAndSort(Query("", AllCategories, AllDiets, AllItems, spec), items);
      multiset(r) == multiset(items) && Stable(spec, items, r)
  {
    var q := Query("", AllCategories, AllDiets, AllItems, spec);
    forall x | true
      ensures Matches(q, x)
    {
      EmptySearchMatches(x);
    }
    SelectAll(q, items);
    var r := FilterAndSort(q, items);
    forall z
      ensures TiesOf(spec, z, r) == TiesOf(spec, z, items)
    {
      SelectAll(q, TiesOf(spec, z, items));
    }
  }

  lemma {:induction false} SelectAll(q: Query, s: seq<Item>)
    requires forall x :: Matches(q, x)
    ensures Select(q, s) == s
    decreases |s|
  {
    if s != [] {
      SelectAll(q, s[1..]);
      SelectCons(q, s[0], s[1..]);
      assert s == [s[0]] + s[1..];
    }
  }
}

=== FILE: menu.dfy ===
/** The records the menu-management page works on: a snapshot of one
    restaurant and its menu items, as fetched by the page. */
module Menu {

  datatype Option<T> = None | Some(value: T)

  datatype Result<T, E> = Success(value: T) | Failure(error: E)

  /** A price as stored: either a string, together with the number
      `parseFloat` reads from it, or a number. Prices are whole amounts. */
  datatype Price =
    | PriceText(text: string, parsed: int)
    | PriceNumber(amount: int)
  {
    /** The number the page compares when sorting by price. */
    function Value(): int
    {
      match this
      case PriceText(_, parsed) => parsed
      case PriceNumber(amount) => amount
    }
  }

  /** A menu item. `createdAt` is the creation time as a timestamp. An absent
      image is the empty string. */
  datatype Item = Item(
    id: string,
    name: string,
    description: string,
    price: Price,
    category: string,
    isVeg: bool,
    image: string,
    restaurantId: string,
    isAvailable: bool,
    createdAt: int)

  /** A restaurant. An absent `customTypes` is the empty sequence and an
      absent `mongoUri` is the empty string: the page treats both alike. */
  datatype Restaurant = Restaurant(
    id: string,
    name: string,
    description: string,
    customTypes: seq<string>,
    mongoUri: string)
}

=== FILE: partition.dfy ===
/** The grouping of the listed items under the category headings: each
    category gets the listed items whose category equals it after
    lower-casing and trimming; during a search, empty categories are hidden. */
module Buckets {
  import opened Text
  import opened Menu
  import opened Sorting
  import opened Seqs

  datatype Bucket = Bucket(heading: string, items: seq<Item>)

  /** An item with a non-empty category belongs under heading `heading` when
      both, lower-cased and trimmed, are equal. */
  predicate BelongsTo(heading: string, it: Item)
  {
    it.category != [] && Trim(Lower(it.category)) == Trim(Lower(heading))
  }

  /** The items under heading `heading`, in list order. */
  function BucketItems(heading: string, items: seq<Item>): (r: seq<Item>)
    ensures |r| <= |items|
    ensures forall i :: 0 <= i < |r| ==> BelongsTo(heading, r[i])
    decreases |items|
  {
    if items == [] then []
    else
      var rest := BucketItems(heading, items[1..]);
      if BelongsTo(heading, items[0]) then [items[0]] + rest else rest
  }

  /** Each item occurs under a heading as often as in the list when it
      belongs there, and not at all otherwise. */
  lemma {:induction false} BucketCount(heading: string, items: seq<Item>)
    ensures forall x :: multiset(BucketItems(heading, items))[x] ==
                        if BelongsTo(heading, x) then multiset(items)[x] else 0
    decreases |items|
  {
    if items != [] {
      BucketCount(heading, items[1..]);
      assert items == [items[0]] + items[1..];
    }
  }

  lemma InBucket(heading: string, items: seq<Item>, x: Item)
    ensures x in BucketItems(heading, items) <==> x in items && BelongsTo(heading, x)
  {
    BucketCount(heading, items);
    assert x in BucketItems(heading, items) <==> x in multiset(BucketItems(heading, items));
    assert x in items <==> x in multiset(items);
  }

  /** A heading keeps the order of a sorted list. */
  lemma {:induction false} BucketSorted(spec: SortSpec, heading: string, items: seq<Item>)
    requires Sorted(spec, items)
    ensures Sorted(spec, BucketItems(heading, items))
    decreases |items|
  {
    if items != [] {
      var x, tail := items[0], items[1..];
      SortedTail(spec, items);
      BucketSorted(spec, heading, tail);
      var t := BucketItems(heading, tail);
      if BelongsTo(heading, x) {
        SortedHead(spec, items);
        forall y | y in t
          ensures Before(spec, x, y)
        {
          InBucket(heading, tail, y);
        }
        SortedCons(spec, x, t);
      }
    }
  }

  lemma BucketCons(heading: string, x: Item, t: seq<Item>)
    ensures BucketItems(heading, [x] + t) == (if BelongsTo(heading, x) then [x] else []) + BucketItems(heading, t)
  {
    assert ([x] + t)[1..] == t;
  }

  /** A heading's items keep their relative order in the list. */
  lemma {:induction false} BucketIsSubsequence(heading: string, items: seq<Item>)
    ensures IsSubsequence(BucketItems(heading, items), items)
    decreases |items|
  {
    if items != [] {
      var tail := items[1..];
      BucketIsSubsequence(heading, tail);
      var b := BucketItems(heading, tail);
      BucketCons(heading, items[0], tail);
      assert items == [items[0]] + tail;
      if BelongsTo(heading, items[0]) {
        SubsequenceKeep(items[0], b, tail);
      } else {
        assert BucketItems(heading, items) == b;
        assert b != [] ==> BelongsTo(heading, b[0]);
        SubsequenceSkip(items[0], b, tail);
      }
    }
  }

  /** Taking a heading's items commutes with taking the items tied with `z`:
      within one heading, equal items keep their list order. */
  lemma {:induction false} BucketTies(spec: SortSpec, heading: string, z: Item, s: seq<Item>)
    ensures TiesOf(spec, z, BucketItems(heading, s)) == BucketItems(heading, TiesOf(spec, z, s))
    decreases |s|
  {
    if s != [] {
      var x, t := s[0], s[1..];
      assert s == [x] + t;
      BucketTies(spec, heading, z, t);
      BucketCons(heading, x, t);
      TiesOfCons(spec, z, x, t);
      if BelongsTo(heading, x) {
        TiesOfCons(spec, z, x, BucketItems(heading, t));
        if Tied(spec, x, z) {
          BucketCons(heading, x, TiesOf(spec, z, t));
        } else {
          assert TiesOf(spec, z, s) == TiesOf(spec, z, t);
          assert TiesOf(spec, z, BucketItems(heading, s)) == TiesOf(spec, z, BucketItems(heading, t));
        }
      } else if Tied(spec, x, z) {
        BucketCons(heading, x, TiesOf(spec, z, t));
      } else {
        assert TiesOf(spec, z, s) == TiesOf(spec, z, t);
        assert BucketItems(heading, s) == BucketItems(heading, t);
      }
    }
  }

  /** Grouping the sorted list gives, under each heading, exactly the stable
      sort of that heading's items: sorting before grouping loses nothing. */
  lemma BucketOfSorted(spec: SortSpec, heading: string, s: seq<Item>)
    ensures BucketItems(heading, Sort(spec, s)) == Sort(spec, BucketItems(heading, s))
  {
    var a := BucketItems(heading, Sort(spec, s));
    var b := Sort(spec, BucketItems(heading, s));
    BucketOfSortedCount(spec, heading, s);
    BucketOfSortedTies(spec, heading, s);
    BucketSorted(spec, heading, Sort(spec, s));
    SortedStableUnique(spec, a, b);
  }

  // Automatic induction is off: the hypotheses it would add only slow this proof.
  lemma {:induction false} BucketOfSortedCount(spec: SortSpec, heading: string, s: seq<Item>)
    ensures multiset(BucketItems(heading, Sort(spec, s))) == multiset(Sort(spec, BucketItems(heading, s)))
  {
    var a := BucketItems(heading, Sort(spec, s));
    var b := Sort(spec, BucketItems(heading, s));
    BucketCount(heading, Sort(spec, s));
    BucketCount(heading, s);
    forall x
      ensures multiset(a)[x] == multiset(b)[x]
    {
    }
  }

  lemma BucketOfSortedTies(spec: SortSpec, heading: string, s: seq<Item>)
    ensures forall z :: TiesOf(spec, z, BucketItems(heading, Sort(spec, s))) ==
                        TiesOf(spec, z, Sort(spec, BucketItems(heading, s)))
  {
    SortStable(spec, s);
    SortStable(spec, BucketItems(heading, s));
    forall z
      ensures TiesOf(spec, z, BucketItems(heading, Sort(spec, s))) ==
              TiesOf(spec, z, Sort(spec, BucketItems(heading, s)))
    {
      BucketTies(spec, heading, z, Sort(spec, s));
      BucketTies(spec, heading, z, s);
    }
  }

  /** The headings shown, in category order: every category gets its bucket,
      except that while a search is active a category without items is
      hidden. */
  function Partition(labels: seq<string>, items: seq<Item>, search: string): (r: seq<Bucket>)
    ensures |r| <= |labels|
    ensures forall b :: b in r ==> b.heading in labels && b.items == BucketItems(b.heading, items)
    ensures forall b :: b in r && search != [] ==> b.items != []
    decreases |labels|
  {
    if labels == [] then []
    else
      var l := labels[0];
      var b := BucketItems(l, items);
      var rest := Partition(labels[1..], items, search);
      if |b| == 0 && search != [] then rest else [Bucket(l, b)] + rest
  }

  /** A category occurrence is kept when there is no search or the category
      has items. */
  predicate Kept(l: string, items: seq<Item>, search: string)
  {
    search == [] || BucketItems(l, items) != []
  }

  /** A category's heading is shown exactly when there is no search or it
      has items. */
  lemma {:induction false} PartitionShows(labels: seq<string>, items: seq<Item>, search: string, l: string)
    ensures (exists b :: b in Partition(labels, items, search) && b.heading == l) <==>
            l in labels && (search == [] || BucketItems(l, items) != [])
    decreases |labels|
  {
    if labels != [] {
      var l0, tail := labels[0], labels[1..];
      assert labels == [l0] + tail;
      PartitionShows(tail, items, search, l);
      PartitionCons(labels, items, search);
      var rest := Partition(tail, items, search);
      if Kept(l0, items, search) && l == l0 {
        assert Bucket(l0, BucketItems(l0, items)) in Partition(labels, items, search);
      }
    }
  }

  lemma PartitionCons(labels: seq<string>, items: seq<Item>, search: string)
    requires labels != []
    ensures Partition(labels, items, search) ==
            (if Kept(labels[0], items, search) then [Bucket(labels[0], BucketItems(labels[0], items))] else []) +
            Partition(labels[1..], items, search)
  {
  }

  function Headings(bs: seq<Bucket>): seq<string>
  {
    seq(|bs|, i requires 0 <= i < |bs| => bs[i].heading)
  }


  lemma HeadingsCons(labels: seq<string>, items: seq<Item>, search: string)
    requires labels != []
    ensures Headings(Partition(labels, items, search)) ==
            (if Kept(labels[0], items, search) then [labels[0]] else []) + Headings(Partition(labels[1..], items, search))
  {
    var rest := Partition(labels[1..], items, search);
    if Kept(labels[0], items, search) {
      var r := Partition(labels, items, search);
      assert r == [Bucket(labels[0], BucketItems(labels[0], items))] + rest;
      assert Headings(r) == [labels[0]] + Headings(rest);
    }
  }

  /** The headings shown keep the category order. */
  lemma {:induction false} PartitionHeadingsInOrder(labels: seq<string>, items: seq<Item>, search: string)
    ensures IsSubsequence(Headings(Partition(labels, items, search)), labels)
    decreases |labels|
  {
    if labels != [] {
      var l0, tail := labels[0], labels[1..];
      assert labels == [l0] + tail;
      PartitionHeadingsInOrder(tail, items, search);
      HeadingsCons(labels, items, search);
      var rest := Partition(tail, items, search);
      var hs' := Headings(rest);
      if Kept(l0, items, search) {
        SubsequenceKeep(l0, hs', tail);
      } else {
        if hs' != [] {
          assert rest[0] in rest;
        }
        SubsequenceSkip(l0, hs', tail);
      }
    }
  }

  /** Each occurrence of a category in `labels` yields one heading when the
      category is kept, and none otherwise; a category listed twice is shown
      twice. */
  lemma {:induction false} PartitionHeadingsCount(labels: seq<string>, items: seq<Item>, search: string)
    ensures forall l :: multiset(Headings(Partition(labels, items, search)))[l] ==
                        if Kept(l, items, search) then multiset(labels)[l] else 0
    decreases |labels|
  {
    if labels != [] {
      assert labels == [labels[0]] + labels[1..];
      PartitionHeadingsCount(labels[1..], items, search);
      HeadingsCons(labels, items, search);
    }
  }

  /** Without a search every category is shown, in order, each with its own
      items (possibly none: the "No items in this category" placeholder). */
  lemma {:induction false} PartitionWithoutSearch(labels: seq<string>, items: seq<Item>)
    ensures var r := Partition(labels, items, "");
      |r| == |labels| &&
      forall i :: 0 <= i < |r| ==> r[i] == Bucket(labels[i], BucketItems(labels[i], items))
    decreases |labels|
  {
    if labels != [] {
      PartitionWithoutSearch(labels[1..], items);
    }
  }

  function ItemIn(category: string): Item
  {
    Item("1", "Dal Makhani", "", PriceNumber(250), category, true, "", "r1", true, 0)
  }

  /** Headings match after case and surrounding blanks are dropped:
      `"starters"` and `"Starters "` both sit under `"Starters"`. */
  lemma StartersBucket()
    ensures BelongsTo("Starters", ItemIn("starters"))
    ensures BelongsTo("Starters", ItemIn("Starters "))
  {
    StartersLower();
    TrimOfTrimmed("starters");
    TrimOneTrailingSpace("starters");
  }

  lemma StartersLower()
    ensures Lower("Starters") == "starters"
    ensures Lower("starters") == "starters"
    ensures Lower("Starters ") == "starters" + " "
  {
  }

  lemma TrimOneTrailingSpace(s: string)
    requires s != [] && !IsSpace(s[0]) && !IsSpace(s[|s| - 1])
    ensures Trim(s + " ") == s
  {
    var u := s + " ";
    assert u[0] == s[0];
    assert TrimStart(u) == u;
    assert u[..|u| - 1] == s;
    assert TrimEnd(u) == TrimEnd(s);
    TrimOfTrimmed(s);
    assert TrimStart(s) == s;
  }

  /** Headings do not match across separators or plurals: neither
      `"main-course"` nor `"Main Courses"` sits under `"Main Course"`. */
  lemma MainCourseBucket()
    ensures !BelongsTo("Main Course", ItemIn("main-course"))
    ensures !BelongsTo("Main Course", ItemIn("Main Courses"))
  {
    HyphenNotUnder("Main Course", "main-course");
    PluralNotUnder("Main Course", "Main Courses");
  }

  /** Stated over parameters so that the verifier reasons from the trimmed
      forms below instead of unfolding `Trim` and `Lower` on the literals. */
  lemma HyphenNotUnder(heading: string, category: string)
    requires heading == "Main Course" && category == "main-course"
    ensures !BelongsTo(heading, ItemIn(category))
  {
    MainCourseTrimmed();
    HyphenatedTrimmed();
    HyphenDiffers();
  }

  lemma PluralNotUnder(heading: string, category: string)
    requires heading == "Main Course" && category == "Main Courses"
    ensures !BelongsTo(heading, ItemIn(category))
  {
    MainCourseTrimmed();
    PluralTrimmed();
    PluralDiffers();
  }

  lemma HyphenDiffers()
    ensures "main-course" != "main course"
  {
    assert "main-course"[4] == '-' && "main course"[4] == ' ';
  }

  lemma PluralDiffers()
    ensures "main courses" != "main course"
  {
    assert |"main courses"| == 12 && |"main course"| == 11;
  }

  lemma MainCourseTrimmed()
    ensures Trim(Lower("Main Course")) == "main course"
  {
    LowerMainCourse();
    TrimLower("Main Course", "main course");
  }

  lemma HyphenatedTrimmed()
    ensures Trim(Lower("main-course")) == "main-course"
  {
    LowerHyphenated();
    TrimLower("main-course", "main-course");
  }

  lemma PluralTrimmed()
    ensures Trim(Lower("Main Courses")) == "main courses"
  {
    LowerPlural();
    TrimLower("Main Courses", "main courses");
  }

  lemma TrimLower(s: string, l: string)
    requires Lower(s) == l && l != [] && !IsSpace(l[0]) && !IsSpace(l[|l| - 1])
    ensures Trim(Lower(s)) == l
  {
    TrimOfTrimmed(l);
  }

  lemma LowerMainCourse()
    ensures Lower("Main Course") == "main course"
  {
  }

  lemma LowerHyphenated()
    ensures Lower("main-course") == "main-course"
  {
  }

  lemma LowerPlural()
    ensures Lower("Main Courses") == "main courses"
  {
  }
}

=== FILE: seqs.dfy ===
/** Sequence facts shared by the modules: duplicates, first occurrences,
    order-preserving deduplication and selection. */
module Seqs {
  import opened Menu

  predicate NoDuplicates<T(==)>(s: seq<T>)
  {
    forall i, j :: 0 <= i < j < |s| ==> s[i] != s[j]
  }

  /** The index of the first occurrence of `x` in `s`. */
  function FirstIndex<T(==)>(s: seq<T>, x: T): (r: nat)
    requires x in s
    ensures r < |s| && s[r] == x && x !in s[..r]
    decreases |s|
  {
    if s[0] == x then 0
    else
      var r := 1 + FirstIndex(s[1..], x);
      assert s[..r] == [s[0]] + s[1..][..r - 1];
      r
  }

  lemma FirstIndexUnique<T>(s: seq<T>, x: T, k: nat)
    requires k < |s| && s[k] == x && x !in s[..k]
    ensures FirstIndex(s, x) == k
  {
  }

  lemma NotInPrefix<T>(s: seq<T>, x: T, k: nat)
    requires k <= |s| && x !in s[..k]
    ensures forall i :: 0 <= i < k ==> s[i] != x
  {
    assert forall i :: 0 <= i < k ==> s[..k][i] == s[i];
  }

  lemma FirstIndexCons<T>(h: T, s: seq<T>, x: T)
    requires x in s && x != h
    ensures FirstIndex([h] + s, x) == 1 + FirstIndex(s, x)
  {
    assert ([h] + s)[1..] == s;
  }

  /** Deduplication the way a JavaScript `Set` does it: the distinct elements
      of `xs`, each at the position of its first occurrence. */
  function Dedup<T(==,!new)>(xs: seq<T>): (r: seq<T>)
    ensures NoDuplicates(r)
    ensures forall x :: x in r <==> x in xs
    ensures forall i, j :: 0 <= i < j < |r| ==> FirstIndex(xs, r[i]) < FirstIndex(xs, r[j])
    decreases |xs|
  {
    if xs == [] then []
    else
      var n := |xs| - 1;
      var prefix := xs[..n];
      var d := Dedup(prefix);
      assert xs == prefix + [xs[n]];
      DedupFirstIndex(xs, d);
      if xs[n] in d then d
      else
        FirstIndexUnique(xs, xs[n], n);
        d + [xs[n]]
  }

  /** Elements of the prefix have the same first index in the whole sequence. */
  lemma DedupFirstIndex<T(!new)>(xs: seq<T>, d: seq<T>)
    requires xs != []
    requires forall x :: x in d <==> x in xs[..|xs| - 1]
    ensures forall x :: x in d ==> x in xs && FirstIndex(xs, x) == FirstIndex(xs[..|xs| - 1], x) < |xs| - 1
  {
    var prefix := xs[..|xs| - 1];
    forall x | x in d
      ensures x in xs && FirstIndex(xs, x) == FirstIndex(prefix, x) < |xs| - 1
    {
      var k := FirstIndex(prefix, x);
      assert xs[k] == x;
      assert xs[..k] == prefix[..k];
      FirstIndexUnique(xs, x, k);
    }
  }

  /** The present values of a sequence of options, in order. */
  function Somes<T(!new)>(xs: seq<Option<T>>): (r: seq<T>)
    ensures forall x :: x in r <==> Some(x) in xs
    decreases |xs|
  {
    if xs == [] then []
    else
      assert forall x :: Some(x) in xs <==> xs[0] == Some(x) || Some(x) in xs[1..] by {
        assert xs == [xs[0]] + xs[1..];
      }
      (if xs[0].Some? then [xs[0].value] else []) + Somes(xs[1..])
  }

  lemma SomesCons<T(!new)>(xs: seq<Option<T>>)
    requires xs != []
    ensures Somes(xs) == (if xs[0].Some? then [xs[0].value] else []) + Somes(xs[1..])
  {
  }

  /** Dropping a head that is not `Some(a)` shifts the first position of `a`
      among the present values by one when the head is present. */
  lemma SomesFirstIndexCons<T(!new)>(xs: seq<Option<T>>, a: T)
    requires xs != [] && xs[0] != Some(a)
    requires a in Somes(xs[1..])
    ensures a in Somes(xs)
    ensures FirstIndex(Somes(xs), a) == (if xs[0].Some? then 1 else 0) + FirstIndex(Somes(xs[1..]), a)
  {
    var tail := xs[1..];
    SomesCons(xs);
    if xs[0].Some? {
      assert Somes(xs) == [xs[0].value] + Somes(tail);
      FirstIndexCons(xs[0].value, Somes(tail), a);
    } else {
      assert Somes(xs) == Somes(tail);
    }
  }

  /** First positions among the present values are ordered as the first
      positions of the options that hold them. */
  lemma {:induction false} SomesOrder<T(!new)>(xs: seq<Option<T>>, a: T, b: T)
    requires Some(a) in xs && Some(b) in xs
    ensures a in Somes(xs) && b in Somes(xs)
    ensures FirstIndex(Somes(xs), a) < FirstIndex(Somes(xs), b) <==>
            FirstIndex(xs, Some(a)) < FirstIndex(xs, Some(b))
    decreases |xs|
  {
    var tail := xs[1..];
    SomesCons(xs);
    if xs[0] == Some(a) || xs[0] == Some(b) {
      assert FirstIndex(xs, xs[0]) == 0;
      assert FirstIndex(Somes(xs), xs[0].value) == 0;
    } else {
      assert xs == [xs[0]] + tail;
      SomesOrder(tail, a, b);
      FirstIndexCons(xs[0], tail, Some(a));
      FirstIndexCons(xs[0], tail, Some(b));
      SomesFirstIndexCons(xs, a);
      SomesFirstIndexCons(xs, b);
    }
  }

  /** `a` is `b` with some elements left out: its elements occur in `b` in
      the same order. */
  predicate IsSubsequence<T(==)>(a: seq<T>, b: seq<T>)
    decreases |b|
  {
    a == [] || (b != [] && if a[0] == b[0] then IsSubsequence(a[1..], b[1..]) else IsSubsequence(a, b[1..]))
  }

  lemma SubsequenceKeep<T>(x: T, a: seq<T>, b: seq<T>)
    requires IsSubsequence(a, b)
    ensures IsSubsequence([x] + a, [x] + b)
  {
    assert ([x] + a)[1..] == a;
    assert ([x] + b)[1..] == b;
  }

  lemma SubsequenceSkip<T>(x: T, a: seq<T>, b: seq<T>)
    requires IsSubsequence(a, b) && (a == [] || a[0] != x)
    ensures IsSubsequence(a, [x] + b)
  {
    assert ([x] + b)[1..] == b;
  }

  /** Putting `f(x)` in front of a mapped sequence maps `x` in front of its
      source. */
  lemma MapCons<A, B>(f: A -> B, x: A, r: seq<B>, v: seq<A>)
    requires |r| == |v| && forall k :: 0 <= k < |r| ==> r[k] == f(v[k])
    ensures |[f(x)] + r| == |[x] + v|
    ensures forall k :: 0 <= k < |[f(x)] + r| ==> ([f(x)] + r)[k] == f(([x] + v)[k])
  {
    forall k | 0 < k < |[f(x)] + r|
      ensures ([f(x)] + r)[k] == f(([x] + v)[k])
    {
      assert ([f(x)] + r)[k] == r[k - 1] && ([x] + v)[k] == v[k - 1];
    }
  }
}

=== FILE: sorting.dfy ===
/** The comparator of the menu list and the stable sort that applies it. */
module Sorting {
  import opened Menu

  // String comparison

  /** String comparison for `localeCompare`, as lexicographic order on
      character codes: negative, zero or positive. */
  function LexCompare(a: string, b: string): (r: int)
    ensures -1 <= r <= 1
    ensures r == 0 <==> a == b
    decreases |a|
  {
    if a == [] && b == [] then 0
    else if a == [] then -1
    else if b == [] then 1
    else if a[0] < b[0] then -1
    else if a[0] > b[0] then 1
    else
      var r := LexCompare(a[1..], b[1..]);
      assert a == [a[0]] + a[1..] && b == [b[0]] + b[1..];
      r
  }

  lemma {:induction false} LexCompareAntisymmetric(a: string, b: string)
    ensures LexCompare(a, b) == -LexCompare(b, a)
    decreases |a|
  {
    if a != [] && b != [] && a[0] == b[0] {
      LexCompareAntisymmetric(a[1..], b[1..]);
    }
  }

  lemma {:induction false} LexCompareTransitive(a: string, b: string, c: string)
    requires LexCompare(a, b) <= 0 && LexCompare(b, c) <= 0
    ensures LexCompare(a, c) <= 0
    decreases |a|
  {
    if a != [] && b != [] && c != [] && a[0] == b[0] == c[0] {
      LexCompareTransitive(a[1..], b[1..], c[1..]);
    }
  }

  // The comparator

  datatype SortKey = ByName | ByPrice | ByCategory | ByRecent
  datatype SortOrder = Asc | Desc
  datatype SortSpec = SortSpec(key: SortKey, order: SortOrder)

  /** The comparison before the direction is applied. Price compares
      `a - b`; recent compares `b.createdAt - a.createdAt`. */
  function Compare(key: SortKey, a: Item, b: Item): int
  {
    match key
    case ByName => LexCompare(a.name, b.name)
    case ByPrice => a.price.Value() - b.price.Value()
    case ByCategory => LexCompare(a.category, b.category)
    case ByRecent => b.createdAt - a.createdAt
  }

  /** The comparator handed to the sort: descending negates the comparison. */
  function Directed(spec: SortSpec, a: Item, b: Item): int
  {
    if spec.order == Asc then Compare(spec.key, a, b) else -Compare(spec.key, a, b)
  }

  /** `a` may come before `b`. */
  predicate Before(spec: SortSpec, a: Item, b: Item)
  {
    Directed(spec, a, b) <= 0
  }

  /** `a` and `b` compare equal. */
  predicate Tied(spec: SortSpec, a: Item, b: Item)
  {
    Directed(spec, a, b) == 0
  }

  lemma DirectedAntisymmetric(spec: SortSpec, a: Item, b: Item)
    ensures Directed(spec, a, b) == -Directed(spec, b, a)
  {
    if spec.key == ByName {
      LexCompareAntisymmetric(a.name, b.name);
    } else if spec.key == ByCategory {
      LexCompareAntisymmetric(a.category, b.category);
    }
  }

  /** The comparator is total: of any two items one may come before the other. */
  lemma BeforeTotal(spec: SortSpec, a: Item, b: Item)
    ensures Before(spec, a, b) || Before(spec, b, a)
    ensures Tied(spec, a, b) <==> Before(spec, a, b) && Before(spec, b, a)
  {
    DirectedAntisymmetric(spec, a, b);
  }

  lemma BeforeTransitive(spec: SortSpec, a: Item, b: Item, c: Item)
    requires Before(spec, a, b) && Before(spec, b, c)
    ensures Before(spec, a, c)
  {
    match spec.key {
      case ByName =>
        if spec.order == Asc {
          LexCompareTransitive(a.name, b.name, c.name);
        } else {
          LexCompareAntisymmetric(a.name, b.name);
          LexCompareAntisymmetric(b.name, c.name);
          LexCompareAntisymmetric(a.name, c.name);
          LexCompareTransitive(c.name, b.name, a.name);
        }
      case ByCategory =>
        if spec.order == Asc {
          LexCompareTransitive(a.category, b.category, c.category);
        } else {
          LexCompareAntisymmetric(a.category, b.category);
          LexCompareAntisymmetric(b.category, c.category);
          LexCompareAntisymmetric(a.category, c.category);
          LexCompareTransitive(c.category, b.category, a.category);
        }
      case ByPrice =>
      case ByRecent =>
    }
  }

  /** Ties are an equivalence: symmetric and transitive. */
  lemma TiedEquivalence(spec: SortSpec, a: Item, b: Item, c: Item)
    ensures Tied(spec, a, a)
    ensures Tied(spec, a, b) ==> Tied(spec, b, a)
    ensures Tied(spec, a, b) && Tied(spec, b, c) ==> Tied(spec, a, c)
  {
    BeforeTotal(spec, a, a);
    BeforeTotal(spec, a, b);
    BeforeTotal(spec, b, c);
    BeforeTotal(spec, a, c);
    if Tied(spec, a, b) && Tied(spec, b, c) {
      BeforeTransitive(spec, a, b, c);
      BeforeTransitive(spec, c, b, a);
    }
  }

  /** The sort key "recent" in descending order, offered as "Recent First",
      puts the older of two items first. */
  lemma RecentDescendingIsOldestFirst(a: Item, b: Item)
    requires a.createdAt < b.createdAt
    ensures Directed(SortSpec(ByRecent, Desc), a, b) < 0
    ensures Directed(SortSpec(ByRecent, Asc), b, a) < 0
  {
  }

  // Stable sorting

  predicate Sorted(spec: SortSpec, s: seq<Item>)
  {
    forall i, j :: 0 <= i < j < |s| ==> Before(spec, s[i], s[j])
  }

  /** The items of `s` that compare equal to `z`, in their order in `s`. */
  function TiesOf(spec: SortSpec, z: Item, s: seq<Item>): (r: seq<Item>)
    ensures |r| <= |s|
    ensures forall i :: 0 <= i < |r| ==> Tied(spec, r[i], z)
    decreases |s|
  {
    if s == [] then []
    else (if Tied(spec, s[0], z) then [s[0]] else []) + TiesOf(spec, z, s[1..])
  }

  /** `output` keeps every group of equal items in its order in `input`. */
  ghost predicate Stable(spec: SortSpec, input: seq<Item>, output: seq<Item>)
  {
    forall z :: TiesOf(spec, z, output) == TiesOf(spec, z, input)
  }

  /** Inserts `x` before the first item it may precede. */
  function Insert(spec: SortSpec, x: Item, s: seq<Item>): (r: seq<Item>)
    requires Sorted(spec, s)
    ensures multiset(r) == multiset(s) + multiset{x}
    ensures Sorted(spec, r)
    decreases |s|
  {
    if s == [] then [x]
    else if Before(spec, x, s[0]) then
      InsertFront(spec, x, s);
      [x] + s
    else
      var t := Insert(spec, x, s[1..]);
      assert s == [s[0]] + s[1..];
      InsertBehind(spec, x, s, t);
      [s[0]] + t
  }

  lemma InsertFront(spec: SortSpec, x: Item, s: seq<Item>)
    requires Sorted(spec, s) && s != [] && Before(spec, x, s[0])
    ensures Sorted(spec, [x] + s)
  {
    var r := [x] + s;
    forall i, j | 0 <= i < j < |r|
      ensures Before(spec, r[i], r[j])
    {
      if i == 0 && j > 1 {
        BeforeTransitive(spec, x, s[0], s[j - 1]);
      }
    }
  }

  lemma InsertBehind(spec: SortSpec, x: Item, s: seq<Item>, t: seq<Item>)
    requires Sorted(spec, s) && s != [] && !Before(spec, x, s[0])
    requires Sorted(spec, t) && multiset(t) == multiset(s[1..]) + multiset{x}
    ensures Sorted(spec, [s[0]] + t)
  {
    var r := [s[0]] + t;
    BeforeTotal(spec, x, s[0]);
    forall i, j | 0 <= i < j < |r|
      ensures Before(spec, r[i], r[j])
    {
      if i == 0 {
        var y := t[j - 1];
        assert y in multiset(t);
        if y != x {
          assert y in multiset(s[1..]);
          var k :| 0 <= k < |s[1..]| && s[1..][k] == y;
          assert s[k + 1] == y;
        }
      } else {
        assert r[i] == t[i - 1] && r[j] == t[j - 1];
      }
    }
  }

  /** Insertion sort: each item is inserted, front to back, before the later
      items it may precede. */
  function Sort(spec: SortSpec, s: seq<Item>): (r: seq<Item>)
    ensures multiset(r) == multiset(s)
    ensures Sorted(spec, r)
    decreases |s|
  {
    if s == [] then []
    else
      assert s == [s[0]] + s[1..];
      Insert(spec, s[0], Sort(spec, s[1..]))
  }

  lemma TiesOfCons(spec: SortSpec, z: Item, x: Item, s: seq<Item>)
    ensures TiesOf(spec, z, [x] + s) == (if Tied(spec, x, z) then [x] else []) + TiesOf(spec, z, s)
  {
    assert ([x] + s)[1..] == s;
  }

  /** Inserting into a sorted sequence places `x` ahead of every item that
      ties with it. */
  lemma {:induction false} InsertTies(spec: SortSpec, x: Item, s: seq<Item>, z: Item)
    requires Sorted(spec, s)
    ensures TiesOf(spec, z, Insert(spec, x, s)) == TiesOf(spec, z, [x] + s)
    decreases |s|
  {
    if s != [] && !Before(spec, x, s[0]) {
      var s0, tl := s[0], s[1..];
      var t := Insert(spec, x, tl);
      assert Insert(spec, x, s) == [s0] + t;
      assert s == [s0] + tl;
      InsertTies(spec, x, tl, z);
      var p := if Tied(spec, s0, z) then [s0] else [];
      var q := if Tied(spec, x, z) then [x] else [];
      TiesOfCons(spec, z, s0, t);
      TiesOfCons(spec, z, x, tl);
      TiesOfCons(spec, z, x, s);
      TiesOfCons(spec, z, s0, tl);
      assert p == [] || q == [] by {
        if Tied(spec, x, z) && Tied(spec, s0, z) {
          TiedEquivalence(spec, x, z, s0);
          TiedEquivalence(spec, s0, z, x);
          BeforeTotal(spec, x, s0);
        }
      }
      SwapEmpty(p, q, TiesOf(spec, z, tl));
    }
  }

  lemma SwapEmpty<T>(p: seq<T>, q: seq<T>, rest: seq<T>)
    requires p == [] || q == []
    ensures p + (q + rest) == q + (p + rest)
  {
  }

  lemma PrefixCancel<T>(p: seq<T>, a: seq<T>, b: seq<T>)
    requires p + a == p + b
    ensures a == b
  {
    assert a == (p + a)[|p|..];
    assert b == (p + b)[|p|..];
  }

  /** The sort is stable. */
  lemma {:induction false} SortStable(spec: SortSpec, s: seq<Item>)
    ensures Stable(spec, s, Sort(spec, s))
    decreases |s|
  {
    if s != [] {
      SortStable(spec, s[1..]);
      var t := Sort(spec, s[1..]);
      forall z
        ensures TiesOf(spec, z, Sort(spec, s)) == TiesOf(spec, z, s)
      {
        InsertTies(spec, s[0], t, z);
        TiesOfCons(spec, z, s[0], t);
        TiesOfCons(spec, z, s[0], s[1..]);
        assert s == [s[0]] + s[1..];
      }
    }
  }

  /** A sorted, stable rearrangement of a sequence is unique: whatever stable
      algorithm sorts the list, the result is the one `Sort` computes. */
  lemma SortIsTheStableSort(spec: SortSpec, s: seq<Item>, r: seq<Item>)
    requires multiset(r) == multiset(s) && Sorted(spec, r) && Stable(spec, s, r)
    ensures r == Sort(spec, s)
  {
    SortStable(spec, s);
    SortedStableUnique(spec, r, Sort(spec, s));
  }

  lemma {:induction false} SortedStableUnique(spec: SortSpec, a: seq<Item>, b: seq<Item>)
    requires multiset(a) == multiset(b) && Sorted(spec, a) && Sorted(spec, b)
    requires forall z :: TiesOf(spec, z, a) == TiesOf(spec, z, b)
    ensures a == b
    decreases |a|
  {
    if a != [] {
      assert |b| == |multiset(b)| == |multiset(a)| == |a|;
      var x := a[0];
      SameHead(spec, a, b);
      assert a == [x] + a[1..] && b == [x] + b[1..];
      forall z
        ensures TiesOf(spec, z, a[1..]) == TiesOf(spec, z, b[1..])
      {
        TiesOfCons(spec, z, x, a[1..]);
        TiesOfCons(spec, z, x, b[1..]);
        PrefixCancel(if Tied(spec, x, z) then [x] else [], TiesOf(spec, z, a[1..]), TiesOf(spec, z, b[1..]));
      }
      MultisetTail(a);
      MultisetTail(b);
      SortedTail(spec, a);
      SortedTail(spec, b);
      SortedStableUnique(spec, a[1..], b[1..]);
    }
  }

  /** Two sorted, stable rearrangements of the same items start alike. */
  lemma SameHead(spec: SortSpec, a: seq<Item>, b: seq<Item>)
    requires a != [] && b != [] && multiset(a) == multiset(b) && Sorted(spec, a) && Sorted(spec, b)
    requires TiesOf(spec, a[0], a) == TiesOf(spec, a[0], b)
    ensures a[0] == b[0]
  {
    var x, y := a[0], b[0];
    assert x in multiset(b) && y in multiset(a);
    MinimumTies(spec, a, b);
    assert a == [x] + a[1..] && b == [y] + b[1..];
    TiedEquivalence(spec, x, x, x);
    TiesOfCons(spec, x, x, a[1..]);
    TiesOfCons(spec, x, y, b[1..]);
    assert TiesOf(spec, x, a)[0] == x;
    assert TiesOf(spec, x, b)[0] == y;
  }

  lemma MultisetTail<T>(s: seq<T>)
    requires s != []
    ensures multiset(s[1..]) == multiset(s) - multiset{s[0]}
  {
    assert s == [s[0]] + s[1..];
    assert multiset(s) == multiset{s[0]} + multiset(s[1..]);
  }

  /** The heads of two sorted rearrangements of the same items tie. */
  lemma MinimumTies(spec: SortSpec, a: seq<Item>, b: seq<Item>)
    requires a != [] && b != [] && Sorted(spec, a) && Sorted(spec, b)
    requires a[0] in multiset(b) && b[0] in multiset(a)
    ensures Tied(spec, b[0], a[0])
  {
    var i :| 0 <= i < |a| && a[i] == b[0];
    var j :| 0 <= j < |b| && b[j] == a[0];
    assert Before(spec, a[0], b[0]) by {
      if i > 0 { assert Before(spec, a[0], a[i]); }
      else { BeforeTotal(spec, a[0], a[0]); }
    }
    assert Before(spec, b[0], a[0]) by {
      if j > 0 { assert Before(spec, b[0], b[j]); }
      else { BeforeTotal(spec, b[0], b[0]); }
    }
    BeforeTotal(spec, b[0], a[0]);
  }

  lemma SortedCons(spec: SortSpec, x: Item, t: seq<Item>)
    requires Sorted(spec, t)
    requires forall y :: y in t ==> Before(spec, x, y)
    ensures Sorted(spec, [x] + t)
  {
    var r := [x] + t;
    forall i, j | 0 <= i < j < |r|
      ensures Before(spec, r[i], r[j])
    {
      assert r[j] == t[j - 1];
      if i > 0 {
        assert r[i] == t[i - 1];
      }
    }
  }

  /** The head of a sorted sequence may precede every later item. */
  lemma SortedHead(spec: SortSpec, s: seq<Item>)
    requires s != [] && Sorted(spec, s)
    ensures forall y :: y in s[1..] ==> Before(spec, s[0], y)
  {
    forall y | y in s[1..]
      ensures Before(spec, s[0], y)
    {
      var k :| 0 <= k < |s[1..]| && s[1..][k] == y;
      assert s[k + 1] == y;
    }
  }

  lemma SortedTail(spec: SortSpec, s: seq<Item>)
    requires s != [] && Sorted(spec, s)
    ensures Sorted(spec, s[1..])
  {
    forall i, j | 0 <= i < j < |s| - 1
      ensures Before(spec, s[1..][i], s[1..][j])
    {
      assert s[1..][i] == s[i + 1] && s[1..][j] == s[j + 1];
    }
  }
}

=== FILE: text.dfy ===
/** String operations with the JavaScript semantics the menu page relies on:
    `trim`, `toLowerCase`, `includes`, `startsWith`, `endsWith`, the regular
    expression replace `/[\s\-_]+/g -> ' '` and `split(/[\s\-_]+/)`.
    Case mapping is modelled for ASCII letters only; every other character
    is left unchanged by both case maps. */
module Text {

  /** JavaScript's WhiteSpace and LineTerminator characters: exactly what
      `String.prototype.trim` strips and what `\s` matches. */
  predicate IsSpace(c: char)
  {
    var n := c as int;
    n == 0x09 || n == 0x0A || n == 0x0B || n == 0x0C || n == 0x0D || n == 0x20 ||
    n == 0xA0 || n == 0x1680 || (0x2000 <= n <= 0x200A) ||
    n == 0x2028 || n == 0x2029 || n == 0x202F || n == 0x205F || n == 0x3000 || n == 0xFEFF
  }

  /** The character class `[\s\-_]` that separates the words of a category. */
  predicate IsSeparator(c: char)
  {
    IsSpace(c) || c == '-' || c == '_'
  }

  predicate IsUpper(c: char) { 'A' <= c <= 'Z' }

  predicate IsLowerLetter(c: char) { 'a' <= c <= 'z' }

  function ToLowerChar(c: char): (r: char)
    ensures !IsUpper(r)
    ensures IsSeparator(r) <==> IsSeparator(c)
  {
    if IsUpper(c) then (c as int + 32) as char else c
  }

  function ToUpperChar(c: char): (r: char)
    ensures !IsLowerLetter(r)
    ensures IsSeparator(r) <==> IsSeparator(c)
  {
    if IsLowerLetter(c) then (c as int - 32) as char else c
  }

  /** Upper-casing a character that is not an upper-case letter is undone by lower-casing. */
  lemma LowerUpperChar(c: char)
    requires !IsUpper(c)
    ensures ToLowerChar(ToUpperChar(c)) == c
  {
  }

  predicate NoUpper(s: string)
  {
    forall i :: 0 <= i < |s| ==> !IsUpper(s[i])
  }

  predicate NoSeparator(s: string)
  {
    forall i :: 0 <= i < |s| ==> !IsSeparator(s[i])
  }

  predicate AllSpace(s: string)
  {
    forall i :: 0 <= i < |s| ==> IsSpace(s[i])
  }

  /** `s.toLowerCase()` */
  function Lower(s: string): (r: string)
    ensures |r| == |s|
    ensures NoUpper(r)
    ensures forall i :: 0 <= i < |s| ==> r[i] == ToLowerChar(s[i])
  {
    seq(|s|, i requires 0 <= i < |s| => ToLowerChar(s[i]))
  }

  /** `s.toUpperCase()` */
  function Upper(s: string): (r: string)
    ensures |r| == |s|
    ensures forall i :: 0 <= i < |s| ==> r[i] == ToUpperChar(s[i])
  {
    seq(|s|, i requires 0 <= i < |s| => ToUpperChar(s[i]))
  }

  lemma LowerConcat(a: string, b: string)
    ensures Lower(a + b) == Lower(a) + Lower(b)
  {
  }

  lemma LowerOfNoUpper(s: string)
    requires NoUpper(s)
    ensures Lower(s) == s
  {
  }

  /** Lower-casing after upper-casing is the same as lower-casing. */
  lemma LowerUpper(s: string)
    ensures Lower(Upper(s)) == Lower(s)
  {
    forall i | 0 <= i < |s|
      ensures Lower(Upper(s))[i] == Lower(s)[i]
    {
      var c := s[i];
      if IsLowerLetter(c) {
        LowerUpperChar(c);
      }
    }
  }

  /** `s.trimStart()` */
  function TrimStart(s: string): (r: string)
    ensures |r| <= |s| && r == s[|s| - |r|..]
    ensures AllSpace(s[..|s| - |r|])
    ensures r == [] || !IsSpace(r[0])
    decreases |s|
  {
    if s != [] && IsSpace(s[0]) then
      var r := TrimStart(s[1..]);
      assert s[..|s| - |r|] == [s[0]] + s[1..][..|s| - 1 - |r|];
      r
    else s
  }

  /** `s.trimEnd()` */
  function TrimEnd(s: string): (r: string)
    ensures |r| <= |s| && r == s[..|r|]
    ensures AllSpace(s[|r|..])
    ensures r == [] || !IsSpace(r[|r| - 1])
    decreases |s|
  {
    if s != [] && IsSpace(s[|s| - 1]) then
      var r := TrimEnd(s[..|s| - 1]);
      assert s[|r|..] == s[..|s| - 1][|r|..] + [s[|s| - 1]];
      r
    else s
  }

  /** `s.trim()`: the infix left after stripping whitespace at both ends. */
  function Trim(s: string): (r: string)
    ensures r == [] || (!IsSpace(r[0]) && !IsSpace(r[|r| - 1]))
  {
    TrimEnd(TrimStart(s))
  }

  /** Trim returns an infix of its argument. */
  lemma TrimInfix(s: string) returns (k: nat)
    ensures k + |Trim(s)| <= |s|
    ensures Trim(s) == s[k..k + |Trim(s)|]
  {
    var t := TrimStart(s);
    k := |s| - |t|;
    InfixOfSuffix(s, k, |TrimEnd(t)|);
  }

  lemma InfixOfSuffix(s: string, k: nat, n: nat)
    requires k + n <= |s|
    ensures s[k..][..n] == s[k..k + n]
  {
  }

  /** Trimming a string without whitespace at its ends changes nothing. */
  lemma TrimOfTrimmed(s: string)
    requires s == [] || (!IsSpace(s[0]) && !IsSpace(s[|s| - 1]))
    ensures Trim(s) == s
  {
  }

  /** Trimming strips a blank prefix in front of a non-blank. */
  lemma {:induction false} TrimStartOfSpaces(a: string, s: string)
    requires AllSpace(a) && (s == [] || !IsSpace(s[0]))
    ensures TrimStart(a + s) == s
    decreases |a|
  {
    if a != [] {
      assert (a + s)[0] == a[0];
      assert (a + s)[1..] == a[1..] + s;
      TrimStartOfSpaces(a[1..], s);
    } else {
      assert a + s == s;
    }
  }

  /** Trimming strips a blank suffix behind a non-blank. */
  lemma {:induction false} TrimEndOfSpaces(s: string, b: string)
    requires AllSpace(b) && (s == [] || !IsSpace(s[|s| - 1]))
    ensures TrimEnd(s + b) == s
    decreases |b|
  {
    if b != [] {
      var n := |b| - 1;
      assert (s + b)[|s + b| - 1] == b[n];
      assert (s + b)[..|s + b| - 1] == s + b[..n];
      TrimEndOfSpaces(s, b[..n]);
    } else {
      assert s + b == s;
    }
  }

  /** `trim` is the infix between a blank prefix and a blank suffix. */
  lemma TrimSplit(s: string) returns (k: nat, m: nat)
    ensures k <= m <= |s|
    ensures AllSpace(s[..k]) && s[k..m] == Trim(s) && AllSpace(s[m..])
    ensures s == s[..k] + Trim(s) + s[m..]
  {
    var r := TrimStart(s);
    var r2 := TrimEnd(r);
    k := |s| - |r|;
    m := k + |r2|;
    assert Trim(s) == r2;
    SliceOfSuffix(s, k, |r2|);
    assert AllSpace(s[m..]);
    SplitThree(s, k, m);
  }

  lemma SliceOfSuffix(s: string, k: nat, n: nat)
    requires k + n <= |s|
    ensures s[k..][..n] == s[k..k + n] && s[k..][n..] == s[k + n..]
  {
  }

  lemma SplitThree(s: string, k: nat, m: nat)
    requires k <= m <= |s|
    ensures s == s[..k] + s[k..m] + s[m..]
  {
  }

  /** A trimmed string padded with blanks trims back to itself. */
  lemma TrimOfPadded(a: string, t: string, b: string)
    requires AllSpace(a) && AllSpace(b)
    requires t == [] || (!IsSpace(t[0]) && !IsSpace(t[|t| - 1]))
    ensures Trim(a + t + b) == t
  {
    if t != [] {
      assert a + t + b == a + (t + b);
      assert (t + b)[0] == t[0];
      TrimStartOfSpaces(a, t + b);
      TrimEndOfSpaces(t, b);
    } else {
      assert a + t + b == (a + b) + [];
      AllSpaceConcat(a, b);
      TrimStartOfSpaces(a + b, []);
    }
  }

  /** Blank padding on either side does not change the trimmed string. */
  lemma TrimIgnoresPadding(e1: string, y: string, e2: string)
    requires AllSpace(e1) && AllSpace(e2)
    ensures Trim(e1 + y + e2) == Trim(y)
  {
    var k, m := TrimSplit(y);
    var t := Trim(y);
    AllSpaceConcat(e1, y[..k]);
    AllSpaceConcat(y[m..], e2);
    Regroup(e1, y[..k], t, y[m..], e2);
    TrimOfPadded(e1 + y[..k], t, y[m..] + e2);
  }

  lemma AllSpaceConcat(a: string, b: string)
    requires AllSpace(a) && AllSpace(b)
    ensures AllSpace(a + b)
  {
    forall i | 0 <= i < |a + b|
      ensures IsSpace((a + b)[i])
    {
      if i >= |a| {
        assert (a + b)[i] == b[i - |a|];
      }
    }
  }

  lemma Regroup(p: string, q: string, t: string, u: string, v: string)
    ensures p + (q + t + u) + v == (p + q) + t + (u + v)
  {
  }

  /** `s.startsWith(prefix)` */
  predicate StartsWith(s: string, prefix: string)
  {
    |prefix| <= |s| && s[..|prefix|] == prefix
  }

  /** `s.endsWith(suffix)` */
  predicate EndsWith(s: string, suffix: string)
  {
    |suffix| <= |s| && s[|s| - |suffix|..] == suffix
  }

  /** `t` occurs in `s` starting at index `i`. */
  predicate OccursAt(s: string, t: string, i: int)
  {
    0 <= i && i + |t| <= |s| && s[i..i + |t|] == t
  }

  /** `s.includes(t)`, scanning the start positions of `s` from the left. */
  predicate Includes(s: string, t: string)
    decreases |s|
  {
    StartsWith(s, t) || (s != [] && Includes(s[1..], t))
  }

  /** `includes` holds exactly when `t` occurs at some position of `s`. */
  lemma {:induction false} IncludesIffOccurs(s: string, t: string)
    ensures Includes(s, t) <==> exists i :: OccursAt(s, t, i)
    decreases |s|
  {
    if s != [] {
      IncludesIffOccurs(s[1..], t);
      forall i | OccursAt(s[1..], t, i)
        ensures OccursAt(s, t, i + 1)
      {
        assert s[i + 1..i + 1 + |t|] == s[1..][i..i + |t|];
      }
      forall i | OccursAt(s, t, i) && i > 0
        ensures OccursAt(s[1..], t, i - 1)
      {
        assert s[i..i + |t|] == s[1..][i - 1..i - 1 + |t|];
      }
    }
    if OccursAt(s, t, 0) {
      assert StartsWith(s, t);
    }
  }

  /** The empty string is included in every string. */
  lemma IncludesEmpty(s: string)
    ensures Includes(s, [])
  {
  }

  /** The classes whose runs the category code collapses: `[\s\-_]` and `\s`. */
  datatype CharClass = Separators | Spaces

  predicate InClass(k: CharClass, c: char)
  {
    match k
    case Separators => IsSeparator(c)
    case Spaces => IsSpace(c)
  }

  /** The longest prefix of `s` free of separators. */
  function TakeWord(s: string): (r: string)
    ensures |r| <= |s| && r == s[..|r|]
    ensures NoSeparator(r)
    ensures |r| < |s| ==> IsSeparator(s[|r|])
    decreases |s|
  {
    if s != [] && !IsSeparator(s[0]) then [s[0]] + TakeWord(s[1..]) else []
  }

  /** `s` with its leading run of class-`k` characters removed. */
  function DropRun(k: CharClass, s: string): (r: string)
    ensures |r| <= |s| && r == s[|s| - |r|..]
    ensures r == [] || !InClass(k, r[0])
    ensures s != [] && InClass(k, s[0]) ==> |r| < |s|
    decreases |s|
  {
    if s != [] && InClass(k, s[0]) then DropRun(k, s[1..]) else s
  }

  /** `s.replace(/k+/g, ' ')`: every maximal run of class-`k` characters
      becomes one space. */
  function CollapseRuns(k: CharClass, s: string): string
    decreases |s|
  {
    if s == [] then []
    else if InClass(k, s[0]) then " " + CollapseRuns(k, DropRun(k, s))
    else [s[0]] + CollapseRuns(k, s[1..])
  }

  /** `s.split(/[\s\-_]+/)`: the pieces between maximal separator runs. A
      leading or trailing run yields an empty first or last piece, and the
      empty string splits into one empty piece. */
  function Split(s: string): (r: seq<string>)
    ensures |r| >= 1
    ensures forall i :: 0 <= i < |r| ==> NoSeparator(r[i])
    decreases |s|
  {
    var w := TakeWord(s);
    var rest := s[|w|..];
    if rest == [] then [w] else [w] + Split(DropRun(Separators, rest))
  }

  /** `ws.join(' ')` */
  function JoinWords(ws: seq<string>): string
  {
    if |ws| == 0 then []
    else if |ws| == 1 then ws[0]
    else ws[0] + " " + JoinWords(ws[1..])
  }

  /** A collapsed string: every separator in it is a plain space and no two
      separators are adjacent. */
  ghost predicate Collapsed(s: string)
  {
    && (forall i :: 0 <= i < |s| && IsSeparator(s[i]) ==> s[i] == ' ')
    && (forall i, j :: 0 <= i < j < |s| && j == i + 1 ==> !(IsSeparator(s[i]) && IsSeparator(s[j])))
  }

  /** Putting a character in front of a collapsed string. */
  lemma CollapsedCons(c: char, x: string)
    ensures Collapsed([c] + x) <==>
      Collapsed(x) && (IsSeparator(c) ==> c == ' ' && (x == [] || !IsSeparator(x[0])))
  {
    var u := [c] + x;
    assert forall i :: 0 <= i < |x| ==> u[i + 1] == x[i];
    if Collapsed(u) {
      forall i, j | 0 <= i && j == i + 1 && j < |x|
        ensures !(IsSeparator(x[i]) && IsSeparator(x[j]))
      {
        assert u[i + 1] == x[i] && u[j + 1] == x[j];
      }
      if IsSeparator(c) && x != [] {
        assert u[0] == c && u[1] == x[0];
      }
    }
    if Collapsed(x) && (IsSeparator(c) ==> c == ' ' && (x == [] || !IsSeparator(x[0]))) {
      forall i | 0 <= i < |u| && IsSeparator(u[i])
        ensures u[i] == ' '
      {
        if i > 0 { assert u[i] == x[i - 1]; }
      }
      forall i, j | 0 <= i && j == i + 1 && j < |u|
        ensures !(IsSeparator(u[i]) && IsSeparator(u[j]))
      {
        if i > 0 { assert u[i] == x[i - 1] && u[j] == x[j - 1]; }
      }
    }
  }

  /** A character outside every collapsed class is copied through. */
  lemma CollapseRunsOfNonSeparator(k: CharClass, u: string)
    requires u != [] && !IsSeparator(u[0])
    ensures CollapseRuns(k, u) == [u[0]] + CollapseRuns(k, u[1..])
  {
    assert !InClass(k, u[0]);
  }

  lemma {:induction false} CollapseRunsOfWord(k: CharClass, w: string, t: string)
    requires NoSeparator(w)
    ensures CollapseRuns(k, w + t) == w + CollapseRuns(k, t)
    decreases |w|
  {
    if w != [] {
      var u := w + t;
      assert u[0] == w[0];
      CollapseRunsOfNonSeparator(k, u);
      assert u[1..] == w[1..] + t;
      CollapseRunsOfWord(k, w[1..], t);
      assert w == [w[0]] + w[1..];
    } else {
      assert w + t == t;
    }
  }

  /** Collapsing never produces a string that starts with a separator unless
      the input starts with one. */
  lemma CollapseRunsHead(k: CharClass, s: string)
    requires s != [] && !IsSeparator(s[0])
    ensures CollapseRuns(k, s) != [] && CollapseRuns(k, s)[0] == s[0]
  {
  }

  /** Collapsing separator runs yields a collapsed string. */
  lemma {:induction false} CollapseRunsCollapsed(s: string)
    ensures Collapsed(CollapseRuns(Separators, s))
    decreases |s|
  {
    if s == [] {
    } else if IsSeparator(s[0]) {
      var d := DropRun(Separators, s);
      CollapseRunsCollapsed(d);
      if d != [] {
        CollapseRunsHead(Separators, d);
      }
      CollapsedCons(' ', CollapseRuns(Separators, d));
    } else {
      CollapseRunsCollapsed(s[1..]);
      CollapsedCons(s[0], CollapseRuns(Separators, s[1..]));
    }
  }

  lemma DropRunOfSpace(k: CharClass, y: string)
    requires y == [] || !IsSeparator(y[0])
    ensures DropRun(k, " " + y) == y
  {
    assert (" " + y)[1..] == y;
  }

  /** A collapsed string is a fixed point of both collapsing replacements. */
  lemma {:induction false} CollapseRunsOfCollapsed(k: CharClass, s: string)
    requires Collapsed(s)
    ensures CollapseRuns(k, s) == s
    decreases |s|
  {
    if s != [] {
      assert s == [s[0]] + s[1..];
      CollapsedCons(s[0], s[1..]);
      CollapseRunsOfCollapsed(k, s[1..]);
      if InClass(k, s[0]) {
        assert s == " " + s[1..];
        DropRunOfSpace(k, s[1..]);
      }
    }
  }

  /** The remainder of `s` after its first word: empty, or starting with a separator. */
  function AfterWord(s: string): (r: string)
    ensures s == TakeWord(s) + r
    ensures r == [] || IsSeparator(r[0])
  {
    s[|TakeWord(s)|..]
  }

  /** A string without separators is one word. */
  lemma OneWord(s: string)
    requires AfterWord(s) == []
    ensures TakeWord(s) == s
    ensures Split(s) == [s]
    ensures CollapseRuns(Separators, s) == s
  {
    CollapseRunsOfWord(Separators, s, []);
    assert s + [] == s;
  }

  /** A string without separators is a single piece. */
  lemma WordIsOneWord(w: string)
    requires NoSeparator(w)
    ensures AfterWord(w) == [] && Split(w) == [w] && CollapseRuns(Separators, w) == w
  {
    assert TakeWord(w) == w[..|w|] == w;
    OneWord(w);
  }

  /** A single separator between two words collapses to one space. */
  lemma CollapseOneSeparator(w1: string, c: char, w2: string)
    requires NoSeparator(w1) && IsSeparator(c) && NoSeparator(w2)
    ensures CollapseRuns(Separators, w1 + [c] + w2) == w1 + " " + w2
  {
    var run := [c] + w2;
    assert w1 + [c] + w2 == w1 + run;
    assert run[0] == c && InClass(Separators, c);
    CollapseRunsOfWord(Separators, w1, run);
    CollapseRunsOfRun(run);
    assert run[1..] == w2;
    assert DropRun(Separators, run) == DropRun(Separators, w2) == w2;
    WordIsOneWord(w2);
    ConcatSpaceAssoc(w1, w2);
  }

  /** The first word of `s`, then the rest split after its leading separator run. */
  lemma SplitStep(s: string)
    requires AfterWord(s) != []
    ensures Split(s) == [TakeWord(s)] + Split(DropRun(Separators, AfterWord(s)))
  {
  }

  /** The first word of `s`, one space, then the rest collapsed after its
      leading separator run. */
  lemma CollapseStep(s: string)
    requires AfterWord(s) != []
    ensures CollapseRuns(Separators, s) ==
            TakeWord(s) + " " + CollapseRuns(Separators, DropRun(Separators, AfterWord(s)))
  {
    var w := TakeWord(s);
    var rest := AfterWord(s);
    CollapseRunsOfWord(Separators, w, rest);
    CollapseRunsOfRun(rest);
    ConcatSpaceAssoc(w, CollapseRuns(Separators, DropRun(Separators, rest)));
  }

  lemma ConcatSpaceAssoc(w: string, x: string)
    ensures w + (" " + x) == w + " " + x
  {
  }

  /** A run of blanks in front of `x` merges into `x`'s own leading run. */
  lemma {:induction false} DropRunOfSpaces(a: string, x: string)
    requires AllSpace(a)
    ensures DropRun(Separators, a + x) == DropRun(Separators, x)
    decreases |a|
  {
    if a != [] {
      assert (a + x)[0] == a[0];
      assert (a + x)[1..] == a[1..] + x;
      DropRunOfSpaces(a[1..], x);
    } else {
      assert a + x == x;
    }
  }

  /** Blanks in front of a string add at most one leading space to its collapse. */
  lemma CollapseOfSpacePrefix(a: string, x: string) returns (e: string)
    requires AllSpace(a)
    ensures AllSpace(e) && CollapseRuns(Separators, a + x) == e + CollapseRuns(Separators, x)
  {
    var cx := CollapseRuns(Separators, x);
    if a == [] {
      assert a + x == x;
      e := [];
      assert e + cx == cx;
    } else {
      var cd := CollapseRuns(Separators, DropRun(Separators, x));
      CollapseOfSpaces(a, x);
      if x != [] && IsSeparator(x[0]) {
        CollapseRunsOfRun(x);
        assert cx == " " + cd;
        e := [];
        assert e + cx == cx;
      } else {
        assert DropRun(Separators, x) == x;
        assert cd == cx;
        e := " ";
        OneSpace();
      }
    }
  }

  lemma CollapseOfSpaces(a: string, x: string)
    requires a != [] && AllSpace(a)
    ensures CollapseRuns(Separators, a + x) == " " + CollapseRuns(Separators, DropRun(Separators, x))
  {
    assert IsSpace(a[0]);
    assert (a + x)[0] == a[0];
    CollapseRunsOfRun(a + x);
    DropRunOfSpaces(a, x);
  }

  /** Blanks behind a string add at most one trailing space to its collapse. */
  lemma {:induction false} CollapseOfSpaceSuffix(x: string, b: string) returns (e: string)
    requires AllSpace(b)
    ensures AllSpace(e) && CollapseRuns(Separators, x + b) == CollapseRuns(Separators, x) + e
    decreases |x|
  {
    var cx := CollapseRuns(Separators, x);
    if x == [] {
      assert x + b == b;
      e := CollapseOfBlank(b);
    } else if IsSeparator(x[0]) {
      var d := DropRun(Separators, x);
      var b' := DropRunOfAppend(x, b);
      e := CollapseOfSpaceSuffix(d, b');
      CollapseOfLeadingRun(x, b, b');
    } else {
      assert (x + b)[0] == x[0];
      assert (x + b)[1..] == x[1..] + b;
      e := CollapseOfSpaceSuffix(x[1..], b);
      CollapseRunsOfNonSeparator(Separators, x + b);
      CollapseRunsOfNonSeparator(Separators, x);
    }
  }

  lemma OneSpace()
    ensures AllSpace(" ")
  {
    assert " "[0] == ' ';
  }

  /** A blank string collapses to one space, or to nothing when empty. */
  lemma CollapseOfBlank(b: string) returns (e: string)
    requires AllSpace(b)
    ensures AllSpace(e) && CollapseRuns(Separators, b) == e
  {
    if b == [] {
      e := [];
    } else {
      assert IsSpace(b[0]);
      CollapseRunsOfRun(b);
      DropRunOfSpaces(b, []);
      assert b + [] == b;
      assert DropRun(Separators, b) == [];
      e := " ";
      OneSpace();
    }
  }

  lemma CollapseOfLeadingRun(x: string, b: string, b': string)
    requires x != [] && IsSeparator(x[0])
    requires DropRun(Separators, x + b) == DropRun(Separators, x) + b'
    ensures CollapseRuns(Separators, x + b) ==
            " " + CollapseRuns(Separators, DropRun(Separators, x) + b')
    ensures CollapseRuns(Separators, x) == " " + CollapseRuns(Separators, DropRun(Separators, x))
  {
    assert (x + b)[0] == x[0];
    CollapseRunsOfRun(x + b);
    CollapseRunsOfRun(x);
  }

  /** Dropping the leading run of `x + b`, for a blank `b`, leaves the rest of
      `x` followed by `b` or by nothing. */
  lemma {:induction false} DropRunOfAppend(x: string, b: string) returns (b': string)
    requires AllSpace(b)
    ensures AllSpace(b') && DropRun(Separators, x + b) == DropRun(Separators, x) + b'
    decreases |x|
  {
    var u := x + b;
    if x == [] {
      assert u == b + [];
      DropRunOfSpaces(b, []);
      b' := [];
    } else if IsSeparator(x[0]) {
      assert u[0] == x[0] && InClass(Separators, x[0]);
      assert u[1..] == x[1..] + b;
      assert DropRun(Separators, u) == DropRun(Separators, x[1..] + b);
      assert DropRun(Separators, x) == DropRun(Separators, x[1..]);
      b' := DropRunOfAppend(x[1..], b);
    } else {
      assert u[0] == x[0] && !InClass(Separators, x[0]);
      assert DropRun(Separators, u) == u;
      b' := b;
    }
  }

  /** Trimming before or after collapsing separator runs gives the same
      trimmed result. */
  lemma TrimCollapseTrim(s: string)
    ensures Trim(CollapseRuns(Separators, Trim(s))) == Trim(CollapseRuns(Separators, s))
  {
    var k, m := TrimSplit(s);
    var t := Trim(s);
    var a, b := s[..k], s[m..];
    AssocThree(a, t, b);
    var e1 := CollapseOfSpacePrefix(a, t + b);
    var e2 := CollapseOfSpaceSuffix(t, b);
    var ct := CollapseRuns(Separators, t);
    assert CollapseRuns(Separators, s) == e1 + (ct + e2);
    AssocThree(e1, ct, e2);
    TrimIgnoresPadding(e1, ct, e2);
  }

  lemma AssocThree(a: string, t: string, b: string)
    ensures a + t + b == a + (t + b)
  {
  }

  /** Joining the pieces of `split(/[\s\-_]+/)` with single spaces is the
      same as replacing every separator run by one space. */
  lemma {:induction false} JoinSplitIsCollapse(s: string)
    ensures JoinWords(Split(s)) == CollapseRuns(Separators, s)
    decreases |s|
  {
    var rest := AfterWord(s);
    if rest == [] {
      OneWord(s);
    } else {
      var d := DropRun(Separators, rest);
      JoinSplitIsCollapse(d);
      SplitStep(s);
      CollapseStep(s);
      JoinCons(TakeWord(s), Split(d));
    }
  }

  lemma JoinCons(w: string, ws: seq<string>)
    requires |ws| >= 1
    ensures JoinWords([w] + ws) == w + " " + JoinWords(ws)
  {
    assert ([w] + ws)[1..] == ws;
  }

  /** A string starting with a separator collapses to a space followed by
      the collapse of what follows its leading run. */
  lemma CollapseRunsOfRun(rest: string)
    requires rest != [] && IsSeparator(rest[0])
    ensures CollapseRuns(Separators, rest) == " " + CollapseRuns(Separators, DropRun(Separators, rest))
  {
  }

  lemma {:induction false} TakeWordOfWordSpace(w: string, y: string)
    requires NoSeparator(w)
    ensures TakeWord(w + " " + y) == w
    decreases |w|
  {
    var u := w + " " + y;
    if w != [] {
      assert u[0] == w[0];
      assert u[1..] == w[1..] + " " + y;
      assert NoSeparator(w[1..]);
      TakeWordOfWordSpace(w[1..], y);
      assert w == [w[0]] + w[1..];
    } else {
      assert u[0] == ' ';
    }
  }

  /** Splitting a string whose first separator is a single space before a
      non-separator. */
  // Automatic induction is off: the hypotheses it would add only slow this proof.
  lemma {:induction false} SplitOfWordSpace(w: string, cd: string)
    requires NoSeparator(w)
    requires cd == [] || !IsSeparator(cd[0])
    ensures Split(w + " " + cd) == [w] + Split(cd)
  {
    var u := w + " " + cd;
    TakeWordOfWordSpace(w, cd);
    assert TakeWord(u) == w;
    assert u[|w|..] == " " + cd;
    DropRunOfSpace(Separators, cd);
    assert DropRun(Separators, u[|w|..]) == cd;
    assert u[|w|..] != [];
  }

  /** Splitting is insensitive to how long each separator run is and which
      separator characters it consists of. */
  lemma {:induction false} SplitOfCollapse(s: string)
    ensures Split(CollapseRuns(Separators, s)) == Split(s)
    decreases |s|
  {
    var rest := AfterWord(s);
    if rest == [] {
      OneWord(s);
    } else {
      var w := TakeWord(s);
      var d := DropRun(Separators, rest);
      SplitOfCollapse(d);
      var cd := CollapseRuns(Separators, d);
      CollapseStep(s);
      if d != [] {
        CollapseRunsHead(Separators, d);
      }
      SplitOfWordSpace(w, cd);
      SplitStep(s);
    }
  }

  /** Lower-casing distributes over joining. */
  lemma {:induction false} LowerJoin(ws: seq<string>, ls: seq<string>)
    requires |ls| == |ws|
    requires forall i :: 0 <= i < |ws| ==> Lower(ws[i]) == ls[i]
    ensures Lower(JoinWords(ws)) == JoinWords(ls)
    decreases |ws|
  {
    if |ws| > 1 {
      LowerJoin(ws[1..], ls[1..]);
      LowerConcat(ws[0] + " ", JoinWords(ws[1..]));
      LowerConcat(ws[0], " ");
    }
  }
}

=== FILE: upload.dfy ===
/** The checks applied to a file picked as a menu item's image. */
module Upload {
  import opened Text
  import opened Menu

  /** The picked file: its name, its MIME type as reported by the browser
      (possibly empty) and its size in bytes. */
  datatype SelectedFile = SelectedFile(name: string, mimeType: string, size: nat)

  /** 200 KB. */
  const MaxImageBytes: nat := 200 * 1024

  /** Camera RAW extensions accepted whatever the MIME type. */
  const RawExtensions: seq<string> := [".arw", ".cr2", ".nef", ".raf", ".rw2", ".dng", ".raw"]

  datatype UploadCheck =
    | NoFile       // nothing was picked: nothing happens
    | TooLarge     // "Image size must be less than 200KB"
    | NotAnImage   // "Please select a valid image file"
    | Accepted     // the file becomes the item's pending image

  /** The MIME type starts with `image/`; the comparison is case-sensitive. */
  predicate IsImageType(f: SelectedFile)
  {
    StartsWith(f.mimeType, "image/")
  }

  /** The lower-cased file name ends with one of the RAW extensions. */
  predicate HasRawExtension(f: SelectedFile)
  {
    exists i :: 0 <= i < |RawExtensions| && EndsWith(Lower(f.name), RawExtensions[i])
  }

  /** `handleImageUpload`: the size limit is checked first, then the type. */
  function CheckImageUpload(file: Option<SelectedFile>): (r: UploadCheck)
    ensures r == NoFile <==> file.None?
    ensures r == TooLarge <==> file.Some? && file.value.size > MaxImageBytes
    ensures r == Accepted <==>
              file.Some? && file.value.size <= MaxImageBytes
              && (IsImageType(file.value) || HasRawExtension(file.value))
  {
    match file
    case None => NoFile
    case Some(f) =>
      if f.size > MaxImageBytes then TooLarge
      else if !IsImageType(f) && !HasRawExtension(f) then NotAnImage
      else Accepted
  }

  /** The outcome does not depend on the case of the file name. */
  lemma NameCaseIrrelevant(f: SelectedFile)
    ensures CheckImageUpload(Some(f.(name := Upper(f.name)))) == CheckImageUpload(Some(f))
    ensures CheckImageUpload(Some(f.(name := Lower(f.name)))) == CheckImageUpload(Some(f))
  {
    LowerUpper(f.name);
    LowerOfNoUpper(Lower(f.name));
  }

  /** A file of exactly 200 KB passes the size check; one byte more does not,
      whatever its type. */
  lemma SizeBoundary(name: string, mimeType: string)
    ensures CheckImageUpload(Some(SelectedFile(name, mimeType, 204800))) != TooLarge
    ensures CheckImageUpload(Some(SelectedFile(name, mimeType, 204801))) == TooLarge
  {
  }

  /** A RAW photo passes without a MIME type. */
  lemma RawWithoutMimeType()
    ensures CheckImageUpload(Some(SelectedFile("DSC_0042.NEF", "", 1000))) == Accepted
  {
    var raw := SelectedFile("DSC_0042.NEF", "", 1000);
    assert Lower(raw.name) == "dsc_0042.nef";
    assert EndsWith(Lower(raw.name), RawExtensions[2]);
  }

  /** The MIME check is case-sensitive: `image/png` is an image type,
      `IMAGE/PNG` is not. */
  lemma MimeTypeCaseSensitive()
    ensures CheckImageUpload(Some(SelectedFile("dish.png", "image/png", 1000))) == Accepted
    ensures CheckImageUpload(Some(SelectedFile("dish.png", "IMAGE/PNG", 1000))) == NotAnImage
  {
    var png := SelectedFile("dish.png", "IMAGE/PNG", 1000);
    assert !IsImageType(png) by {
      assert png.mimeType[..6][0] == 'I';
    }
    NotRaw(png);
  }

  lemma NotRaw(f: SelectedFile)
    requires f.name == "dish.png"
    ensures !HasRawExtension(f)
  {
    assert Lower(f.name) == "dish.png";
    assert Lower(f.name)[4..] == ".png";
  }
}

=== FILE: view.dfy ===
/** The menu page as a whole: the resolved category headings, each holding
    the filtered and sorted items that belong under it. */
module MenuView {
  import opened Text
  import opened Menu
  import opened Categories
  import opened Listing
  import opened Buckets
  import opened Sorting
  import Seqs

  /** The buckets the page renders for a restaurant, its items and the
      state of the list controls. */
  function View(restaurant: Restaurant, items: seq<Item>, q: Query): (r: seq<Bucket>)
    ensures forall b :: b in r ==> b.heading in ResolveCategories(restaurant, items)
    ensures Seqs.IsSubsequence(Headings(r), ResolveCategories(restaurant, items))
    ensures forall b :: b in r ==> b.items == BucketItems(b.heading, FilterAndSort(q, items))
    ensures forall b :: b in r && q.search != [] ==> b.items != []
  {
    PartitionHeadingsInOrder(ResolveCategories(restaurant, items), FilterAndSort(q, items), q.search);
    Partition(ResolveCategories(restaurant, items), FilterAndSort(q, items), q.search)
  }

  /** A heading is shown exactly when it is one of the resolved categories
      and it is kept: there is no search, or some listed item belongs
      under it. */
  lemma HeadingShown(restaurant: Restaurant, items: seq<Item>, q: Query, l: string)
    ensures (exists b :: b in View(restaurant, items, q) && b.heading == l) <==>
            l in ResolveCategories(restaurant, items) && Kept(l, FilterAndSort(q, items), q.search)
  {
    PartitionShows(ResolveCategories(restaurant, items), FilterAndSort(q, items), q.search, l);
  }

  /** Each bucket holds the items that pass the list controls and belong under
      its heading, stably sorted: grouping after sorting is the same as
      sorting each group. */
  lemma BucketIsSortedSelection(restaurant: Restaurant, items: seq<Item>, q: Query, b: Bucket)
    requires b in View(restaurant, items, q)
    ensures b.items == Sort(q.sort, BucketItems(b.heading, Select(q, items)))
  {
    BucketOfSorted(q.sort, b.heading, Select(q, items));
  }

  /** An item is shown on the page exactly when it is on the menu, passes the
      list controls and belongs under one of the category headings. */
  lemma ItemShown(restaurant: Restaurant, items: seq<Item>, q: Query, x: Item)
    ensures (exists b :: b in View(restaurant, items, q) && x in b.items) <==>
            x in items && Matches(q, x) &&
            exists l :: l in ResolveCategories(restaurant, items) && BelongsTo(l, x)
  {
    if exists b :: b in View(restaurant, items, q) && x in b.items {
      var b :| b in View(restaurant, items, q) && x in b.items;
      ShownItemIsListed(restaurant, items, q, x, b);
    }
    if x in items && Matches(q, x) && exists l :: l in ResolveCategories(restaurant, items) && BelongsTo(l, x) {
      var l :| l in ResolveCategories(restaurant, items) && BelongsTo(l, x);
      ListedItemIsShown(restaurant, items, q, x, l);
    }
  }

  /** The filtered and sorted list holds exactly the matching menu items. */
  lemma InFilterAndSort(q: Query, items: seq<Item>, x: Item)
    ensures x in FilterAndSort(q, items) <==> x in items && Matches(q, x)
  {
    var list := FilterAndSort(q, items);
    assert x in list <==> x in multiset(list);
    assert x in items <==> x in multiset(items);
  }

  /** A shown item is a matching menu item under its bucket's heading. */
  lemma ShownItemIsListed(restaurant: Restaurant, items: seq<Item>, q: Query, x: Item, b: Bucket)
    requires b in View(restaurant, items, q) && x in b.items
    ensures x in items && Matches(q, x)
    ensures b.heading in ResolveCategories(restaurant, items) && BelongsTo(b.heading, x)
  {
    InBucket(b.heading, FilterAndSort(q, items), x);
    InFilterAndSort(q, items, x);
  }

  /** A matching menu item under some heading is shown in that bucket. */
  lemma ListedItemIsShown(restaurant: Restaurant, items: seq<Item>, q: Query, x: Item, l: string)
    requires x in items && Matches(q, x)
    requires l in ResolveCategories(restaurant, items) && BelongsTo(l, x)
    ensures exists b :: b in View(restaurant, items, q) && x in b.items
  {
    var list := FilterAndSort(q, items);
    InFilterAndSort(q, items, x);
    InBucket(l, list, x);
    HeadingShown(restaurant, items, q, l);
    var b :| b in View(restaurant, items, q) && b.heading == l;
    assert x in b.items;
  }

  /** When the headings are derived from the items, an item whose category
      has a hyphen gets a heading it does not sit under: a restaurant with
      only a `"main-course"` item shows the heading `"Main Course"` and no
      item at all. */
  lemma HyphenatedCategoryIsHidden(restaurant: Restaurant, q: Query)
    requires restaurant.customTypes == [] && restaurant.mongoUri != []
    ensures var x := ItemIn("main-course");
      ResolveCategories(restaurant, [x]) == ["Main Course"] &&
      !exists b :: b in View(restaurant, [x], q) && x in b.items
  {
    var x := ItemIn("main-course");
    HyphenatedHeadings(restaurant, x);
    HeadingMisses(ResolveCategories(restaurant, [x]), x);
    NoHeadingHidden(restaurant, [x], q, x);
  }

  lemma HeadingMisses(cats: seq<string>, x: Item)
    requires cats == ["Main Course"] && x == ItemIn("main-course")
    ensures forall l :: l in cats ==> !BelongsTo(l, x)
  {
    MainCourseBucket();
  }

  /** An item that belongs under none of the headings is not shown. */
  lemma NoHeadingHidden(restaurant: Restaurant, items: seq<Item>, q: Query, x: Item)
    requires forall l :: l in ResolveCategories(restaurant, items) ==> !BelongsTo(l, x)
    ensures !exists b :: b in View(restaurant, items, q) && x in b.items
  {
    ItemShown(restaurant, items, q, x);
  }

  lemma HyphenatedHeadings(restaurant: Restaurant, x: Item)
    requires restaurant.customTypes == [] && restaurant.mongoUri != []
    requires x == ItemIn("main-course")
    ensures ResolveCategories(restaurant, [x]) == ["Main Course"]
  {
    HyphenatedContribution(x);
    SingleFormatted(x, "Main Course");
    SingleDedup("Main Course");
  }

  lemma SingleFormatted(x: Item, l: string)
    requires Contribution(x) == Some(l)
    ensures FormattedCategories([x]) == [l]
  {
    assert Contributions([x]) == [Some(l)];
    SingleSome(l);
  }

  lemma SingleSome(l: string)
    ensures Seqs.Somes([Some(l)]) == [l]
  {
    assert [Some(l)][1..] == [];
  }

  lemma SingleDedup(e: string)
    ensures Seqs.Dedup([e]) == [e]
  {
    assert [e][..0] == [];
  }

  lemma HyphenatedContribution(x: Item)
    requires x == ItemIn("main-course")
    ensures IsValidCategory(x.category) && Contribution(x) == Some("Main Course")
  {
    HyphenatedMainCourse();
    TrimOfTrimmed("main-course");
  }
}
